=== FILE: README.md ===
# CineAPP core in Dafny

CineAPP is a movie and TV-show rental app. This project models the core of
that app as immutable Dafny datatypes and pure functions, and proves
properties about them. The core consists of:

- the per-user bookkeeping that its React contexts keep: the cart, rentals,
  the watch history, favourites and authentication;
- the local SQLite store behind it;
- the mock movie API;
- the small decision rules inside five screens: rentals, watched, movie
  details, register and login.

Conventions:

- The current time is an integer parameter `now`, in milliseconds.
- Prices are integer cents, so 9.99 becomes 999.
- `vote_average` and `popularity` are integers in tenths.
- Strings are `seq<char>`.
- Every operation returns a new state instead of mutating one.

Modules, one per source unit:

- `Common`: the `Option`/`Result` wrappers, the `Movie | Show` content record and `Array.prototype.filter` as `Filter`, plus the lemmas that go with it. It also holds the ASCII lower-casing, the substring test, `trim` and the decimal rendering that JavaScript and SQLite provide.
- `UserScope`: the per-user storage that the list-valued contexts share. The key is `<prefix>_<userId>`, or the bare prefix when nobody is signed in. The in-memory list is reset when the user signs out.
- `Cart`, `Rentals`, `History`, `Favorites`: the four list contexts.
- `Users`, `Auth`: the `users` table and the authentication context as a state machine over it.
- `Catalog`, `Ordering`, `Search`: the database service.
  - The tables are maps keyed by primary key, and `search_history` is a sequence.
  - `ORDER BY ... LIMIT` is a sort of the rows in the engine's scan order followed by a cut.
  - The scan order is a parameter constrained to list every key exactly once, because SQL leaves it unspecified.
- `MovieApi`: the static mock catalog, its search, the lookup by id, and the image URLs.
- `RentalsScreen`, `WatchedScreen`, `MovieDetails`, `AuthScreens`: the screen rules.

The INSERT OR REPLACE statement of `insertMovie` does not list the
favourite, watched and rented columns, so a replaced row takes their
defaults and the flags are reset. `Catalog.InsertMovie` and
`Catalog.ReinsertClearsFavorite` state this.

## Model

| member | source | states |
|---|---|---|
| Cart.MakeLine | contexts/CartContext.tsx:56-59 | a new line's id is `movieId-type-timestamp`, and every other field is copied from the argument |
| Cart.FindLine | contexts/CartContext.tsx:63-65 | `findIndex`: -1 exactly when no line has the (movieId, type) key; otherwise the first index with that key |
| Cart.AddItem | contexts/CartContext.tsx:55-77 | an existing key is overwritten at its index, with the length and all other lines unchanged; a new key is appended at the end |
| Cart.AddItemKeepsKeysUnique | contexts/CartContext.tsx:63-74 | `addItem` preserves "at most one line per (movieId, type)" |
| Cart.AddItemSingleLineForKey | contexts/CartContext.tsx:63-74 | after `addItem`, every line with the draft's key is the new line |
| Cart.AddTwiceLastWins | contexts/CartContext.tsx:67-71 | two additions with the same key leave exactly one line for it, priced as the second addition |
| Cart.RemoveItem | contexts/CartContext.tsx:79-81 | a line is kept exactly when its id differs, and the kept lines keep their relative order |
| Cart.RemoveItemCounts | contexts/CartContext.tsx:79-81 | every line with another id keeps all its copies, and no line with the id is left |
| Cart.RemoveItemKeepsKeysUnique | contexts/CartContext.tsx:79-81 | `removeItem` preserves "at most one line per (movieId, type)" |
| Cart.ClearCart | contexts/CartContext.tsx:83-85 | the cart is empty |
| Cart.TotalAppend | contexts/CartContext.tsx:87 | the price sum of a concatenation is the sum of the parts' sums |
| Cart.TotalUpdate | contexts/CartContext.tsx:87 | replacing one line moves the total by exactly the price difference |
| Cart.AddItemTotal | contexts/CartContext.tsx:61-87 | after `addItem`, the total is the old total plus the new price, minus the price of the line it replaced |
| Cart.SignedOutCartEmpty | contexts/CartContext.tsx:16-22 | with no user signed in, the item list is reset to empty |
| Cart.ProviderAddItem | contexts/CartContext.tsx:24-28 | the list becomes `addItem`'s result and is written to the user's key only while someone is signed in |
| UserScope.StorageKey | contexts/FavoritesContext.tsx:32-34 | the key is the bare prefix for no user and extends the prefix for a signed-in user |
| UserScope.StorageKeyInjective | contexts/RentalsContext.tsx:46-48 | two different users, or a user and nobody, never share a storage key |
| UserScope.OnUserChanged | contexts/HistoryContext.tsx:35-55 | signed out, the list is emptied; signed in, it is loaded from the user's key, or emptied if nothing is stored there |
| UserScope.Commit | contexts/HistoryContext.tsx:57-64 | the list is stored under the current user's key; every other key is untouched |
| UserScope.CommitSignedIn | contexts/CartContext.tsx:45-53 | the cart's save writes nothing when nobody is signed in |
| UserScope.CommitThenReload | contexts/RentalsContext.tsx:38-71 | signing out and back in restores what the user last stored |
| UserScope.CommitIsolated | contexts/RentalsContext.tsx:46-71 | what one user stores is never loaded for another user |
| Rentals.MakeRental | contexts/RentalsContext.tsx:73-87 | the id is `itemId-type-idTime` from its own clock read, the title is `title` for a movie and `name` for a show, and `expiresAt` is `rentedAt` plus 48 h from the same `now` |
| Rentals.AddRental | contexts/RentalsContext.tsx:89 | exactly one record is appended and every earlier record, even for the same content, is kept unchanged |
| Rentals.RemoveRental | contexts/RentalsContext.tsx:94-98 | a record is kept exactly when its id differs, and the kept records keep their order |
| Rentals.RemoveRentalCounts | contexts/RentalsContext.tsx:94-98 | every record with another id keeps all its copies, and no record with the id is left |
| Rentals.ClearRentals | contexts/RentalsContext.tsx:108-111 | afterwards no id is rented at any time, and both the active and the expired lists are empty |
| Rentals.IsRented | contexts/RentalsContext.tsx:100-106 | true exactly when some record has that movieId and expires after `now`; movies and shows sharing an id are not told apart |
| Rentals.ActiveRentals | contexts/RentalsContext.tsx:113-116 | exactly the records expiring after `now`, in list order |
| Rentals.ExpiredRentals | contexts/RentalsContext.tsx:118-121 | exactly the records expiring at or before `now`, in list order |
| Rentals.ActiveExpiredPartition | contexts/RentalsContext.tsx:113-121 | active and expired partition the list: the lengths add up, the multisets add up, and nothing is in both |
| Rentals.RentalLifetime | contexts/RentalsContext.tsx:75-121 | a rental taken at t is active and counts as rented before t + 48 h, and is expired from t + 48 h on |
| Rentals.RentalScenario | contexts/RentalsContext.tsx:73-121 | a movie rented at T0 is still rented at T0 + 47h59m and expired at T0 + 48h01m |
| Rentals.SignedOutNothingRented | contexts/RentalsContext.tsx:38-44 | signed out, the list is empty, so nothing counts as rented |
| Rentals.ProviderAddRental | contexts/RentalsContext.tsx:73-92 | the provider appends the new rental and stores the new list under the user's key |
| Rentals.ProviderClearRentals | contexts/RentalsContext.tsx:108-111 | the provider's list is empty and the empty list is stored |
| History.MakeEntry | contexts/HistoryContext.tsx:67-74 | the entry copies the id, title (or name) and poster; the duration is 120 for a movie and 45 for a show |
| History.RemoveFromHistory | contexts/HistoryContext.tsx:76-88 | an entry is kept exactly when its id differs, and the kept entries keep their order; `addToHistory` applies the same filter |
| History.AddToHistory | contexts/HistoryContext.tsx:77-78 | the new entry is at index 0, and no later entry has its id |
| History.RemoveFromHistoryUnique | contexts/HistoryContext.tsx:84-88 | with unique ids, dropping an id removes one entry if it was present and none otherwise |
| History.AddToHistoryUnique | contexts/HistoryContext.tsx:77-78 | `addToHistory` preserves unique ids; the length grows by one only for a new id |
| History.ClearHistory | contexts/HistoryContext.tsx:90-93 | afterwards no id is in the history, and the watched time and both counts are 0 |
| History.MoviesPlusSeries | contexts/HistoryContext.tsx:99-105 | the movie count plus the series count equals the history length |
| History.WatchedTimeAdd | contexts/HistoryContext.tsx:73-97 | watching a new id adds its mock duration to the total watched time |
| History.WatchedTimeRemove | contexts/HistoryContext.tsx:84-97 | with unique ids, removing an id takes exactly that entry's minutes off the watched time |
| History.RewatchReplacesTime | contexts/HistoryContext.tsx:73-97 | with unique ids, re-watching an id takes its old duration off the watched time and adds the new one |
| History.SignedOutHistoryEmpty | contexts/HistoryContext.tsx:35-41 | signed out, the history is empty and the watched time is 0 |
| History.ProviderAddToHistory | contexts/HistoryContext.tsx:66-82 | the provider puts the new entry first, followed by exactly the old entries with another id in their order, and stores the new list under the user's key |
| Favorites.IsFavorite | contexts/FavoritesContext.tsx:74-76 | true exactly when some entry has that id |
| Favorites.AddToFavorites | contexts/FavoritesContext.tsx:59-66 | a no-op when the id is present; otherwise the item is appended; afterwards the id is a favourite |
| Favorites.AddToFavoritesUniqueIdempotent | contexts/FavoritesContext.tsx:60-66 | unique ids are preserved, and adding twice is the same as adding once |
| Favorites.RemoveFromFavorites | contexts/FavoritesContext.tsx:68-72 | an entry is kept exactly when its id differs, the kept entries keep their order, and the id is no longer a favourite |
| Favorites.RemoveFromFavoritesKeepsIdsUnique | contexts/FavoritesContext.tsx:68-72 | `removeFromFavorites` preserves unique ids |
| Favorites.RemoveFromFavoritesCounts | contexts/FavoritesContext.tsx:68-72 | every entry with another id keeps all its copies, and no entry with the id is left |
| Favorites.MembershipAfterUpdate | contexts/FavoritesContext.tsx:59-76 | the id is a favourite right after adding it and not right after removing it; other ids are unaffected |
| Favorites.ClearFavorites | contexts/FavoritesContext.tsx:78-81 | afterwards no id is a favourite |
| Favorites.SignedOutNoFavorites | contexts/FavoritesContext.tsx:24-30 | signed out, the list is empty and no id is a favourite |
| Favorites.ProviderAddToFavorites | contexts/FavoritesContext.tsx:59-66 | for a present id, neither the list nor storage changes; otherwise the item is appended and stored |
| Favorites.ProviderRemoveFromFavorites | contexts/FavoritesContext.tsx:68-72 | afterwards the id is not a favourite, the list holds exactly the old entries with another id in their order, and the new list is stored |
| Users.GetUserByEmail | services/database.ts:640-654 | the row with that email, if any; none exactly when no row has it |
| Users.CreateUser | services/database.ts:624-638 | fails, changing nothing, on a stored id (primary key) or email (UNIQUE); otherwise adds exactly the new row |
| Users.CreateUserSound | services/database.ts:120-127 | a successful insert keeps ids and emails unique, adds one row, and makes it findable by email |
| Users.UpdateUser | services/database.ts:656-670 | an unknown id changes nothing; an email held by another row fails; otherwise name, email and updatedAt change |
| Users.UpdateUserKeepsWellFormed | services/database.ts:123 | a successful update keeps emails unique and the key set unchanged |
| Auth.BeforeAt | contexts/AuthContext.tsx:78 | `email.split('@')[0]`: the longest prefix without `@`, which ends where the first `@` is |
| Auth.SessionOf | contexts/AuthContext.tsx:65-69 | the session user carries the row's id, name and email |
| Auth.Login | contexts/AuthContext.tsx:56-96 | a stored email with a matching password logs that user in and adds no row; an unknown email creates and logs in a user named after the text before `@`; a stored email with the wrong password returns false and changes nothing |
| Auth.Register | contexts/AuthContext.tsx:98-128 | a stored email returns false and changes nothing; a new email adds exactly one row and makes it the session user |
| Auth.Logout | contexts/AuthContext.tsx:130-137 | the session user becomes null, so `isAuthenticated` is false; the table is kept |
| Auth.TransitionsKeepWellFormed | contexts/AuthContext.tsx:83-116 | login and register keep the users table well formed and never remove a row |
| Auth.RegisterThenLogin | contexts/AuthContext.tsx:61-121 | after registering, logging out and back in with the same credentials succeeds as the same user and adds no row |
| Auth.LoginFailureMeansWrongPassword | contexts/AuthContext.tsx:83-92 | a failed login (with a fresh time-derived id) means the email is stored with a different password |
| Catalog.FreshRow | services/database.ts:67-69 | a written row has its three flags false |
| Catalog.InsertMovie | services/database.ts:155-179 | replace by id: exactly the new content under its id, flags reset, every other row and table untouched |
| Catalog.InsertTVShow | services/database.ts:248-272 | the same for `tv_shows` |
| Catalog.ReinsertClearsFavorite | services/database.ts:162-174 | re-inserting a favourite movie clears its favourite flag |
| Catalog.InsertKeepsWellKeyed | services/database.ts:53 | inserts keep every row under its own id |
| Catalog.InsertMovies | services/database.ts:181-193 | the keys afterwards are the old keys plus the inserted ids, no inserted movie has a flag set, the other rows and the other tables are kept |
| Catalog.InsertMoviesLastWins | services/database.ts:181-193 | an inserted id holds the last movie given with that id |
| Catalog.InsertGenre | services/database.ts:348 | INSERT OR IGNORE: a stored id or name leaves the table unchanged; otherwise adds the genre |
| Catalog.InsertGenresSpec | services/database.ts:341-356 | stored genres never change, names stay unique, and each given genre ends up stored by id or by name |
| Catalog.GetMovie | services/database.ts:195-220 | the row under that id, or none exactly when there is no such row |
| Catalog.ToggleMovieFavorite | services/database.ts:520-539 | an unknown id fails; otherwise the negated flag is stored and returned, and `updatedAt` is stamped |
| Catalog.ToggleTwice | services/database.ts:520-539 | toggling twice restores the flag; only `updatedAt` differs |
| Catalog.ToggleFavoriteSet | services/database.ts:520-539 | one toggle adds exactly that id to the favourite set, and a second removes it |
| Catalog.ClearAllData | services/database.ts:566-579 | movies, shows, genres and the search log are emptied, and users are kept |
| Catalog.ClearSearchHistory | services/database.ts:581-591 | only the search log is emptied |
| Catalog.StatsAfterWrites | services/database.ts:593-621 | the counts are 0 after clearing, and inserting a movie adds one only for an id not stored yet |
| Catalog.CreateUser | services/database.ts:624-638 | `createUser` on the store: fails on a stored id or email, otherwise adds exactly that row |
| Ordering.Sort | services/database.ts:228 | the result is ordered by popularity then rating (or by `updatedAt`), and is a permutation of the input |
| Ordering.Limit | services/database.ts:228 | `LIMIT n` gives a prefix: all rows for a negative or large n, otherwise exactly n |
| Ordering.Select | services/database.ts:222-245 | rows come from the table, match, are distinct and sorted, are no more than the limit, and a matching row is left out only when the limit is reached and it ranks no higher than any returned row |
| Search.GetPopular | services/database.ts:222-245 | `getPopularMovies`/`getPopularTVShows`: at most `limit` rows, sorted by popularity then rating; a row is missing only when the limit is full |
| Search.SearchContent | services/database.ts:374-480 | movies are searched unless the type is tv, and shows unless it is movie; at most 50 of each; `total` is the sum; every row matches the truthy filters; only the limit leaves a match out; a truthy query is logged |
| Search.FalsyFiltersIgnored | services/database.ts:391-409 | absent, zero or empty filters match every row |
| Search.GenreMemberMatches | services/database.ts:397-400 | every row that carries the genre passes the genre filter |
| Search.GenreSubstringQuirk | services/database.ts:397-400 | the genre test is a substring test on the JSON text: genre 8 matches `[878]` |
| Search.QueryIgnoresCase | services/database.ts:391-395 | LIKE finds the query in the title whatever its case |
| Search.SaveSearchQuery | services/database.ts:483-502 | the trimmed query is logged last, the log keeps at most the 50 newest entries, and the others are the newest of the old log |
| Search.RecentQueries | services/database.ts:510 | the distinct logged queries: every logged query once and nothing else, the latest first |
| Search.GetSearchHistory | services/database.ts:504-517 | at most 10 distinct logged queries, all of them when there are at most 10; the newest is first when it was not logged before |
| Search.SavedQueryComesFirst | services/database.ts:483-517 | a query not searched before is offered first once saved, and the log stays within 50 |
| Search.GetFavoriteMovies | services/database.ts:541-563 | exactly the flagged rows, each once, ordered by `updatedAt` descending |
| Search.FavoriteMoviesAreFlaggedIds | services/database.ts:520-563 | the ids `getFavoriteMovies` returns are the ids the toggles flag |
| MovieApi.MockCatalogWellFormed | services/movieApi.ts:4-153 | the mock lists hold movies and shows whose ids are unique (1-6 and 1-3) |
| MovieApi.GetPopularMovies | services/movieApi.ts:185-191 | the whole mock movie list on one page, whatever page is asked for |
| MovieApi.GetPopularTVShows | services/movieApi.ts:193-199 | the whole mock show list on one page |
| MovieApi.GetGenres | services/movieApi.ts:215-218 | exactly the mock genre list: 19 genres with unique ids |
| MovieApi.FindById | services/movieApi.ts:203 | `find`: none exactly when no item has the id; otherwise the first item with it |
| MovieApi.GetMovieDetails | services/movieApi.ts:201-206 | the movie with that id, or the error "Movie not found" exactly when there is none |
| MovieApi.GetTVShowDetails | services/movieApi.ts:208-213 | the show with that id, or the error "TV Show not found" |
| MovieApi.DetailsFoundExactly | services/movieApi.ts:201-213 | lookups succeed exactly for movie ids 1-6 and show ids 1-3 |
| MovieApi.SearchList | services/movieApi.ts:222-225 | exactly the items whose lower-cased title or overview contains the lower-cased query, in catalog order |
| MovieApi.SearchMovies | services/movieApi.ts:220-230 | the matching mock movies, a subsequence of the catalog, on one page |
| MovieApi.SearchTVShows | services/movieApi.ts:232-242 | the matching mock shows, matched on name and overview, on one page |
| MovieApi.SearchListEmptyQuery | services/movieApi.ts:222-225 | the empty query keeps every item of the list searched |
| MovieApi.EmptyQueryReturnsAll | services/movieApi.ts:222-225 | the empty query returns the whole catalog |
| MovieApi.SearchIgnoresCase | services/movieApi.ts:223 | "BARBIE" finds Barbie |
| MovieApi.GetImageUrl | services/movieApi.ts:244-247 | an empty path gives the placeholder; otherwise the URL is the TMDB base, then the size, then the path |
| MovieApi.GetImageUrlDefault | services/movieApi.ts:244 | the default size is `w500` |
| MovieApi.ImageUrlRoundTrip | services/movieApi.ts:246 | the size and path can be read back from a built URL |
| MovieApi.ImageUrlInjective | services/movieApi.ts:246 | different requests give different URLs |
| MovieApi.PlaceholderNeverBuilt | services/movieApi.ts:245-246 | a built URL is never the placeholder |
| RentalsScreen.FloorDiv | app/rentals.tsx:39 | `Math.floor(a / b)`: the quotient rounded down |
| RentalsScreen.JsRem | app/rentals.tsx:40 | JavaScript's `%`: the result takes the sign of the dividend and is smaller in size than the divisor |
| RentalsScreen.JsRemQuotient | app/rentals.tsx:40 | the dividend is a quotient rounded toward zero times the divisor, plus `%`'s result |
| RentalsScreen.TimeRemaining | app/rentals.tsx:35-48 | hours are shown exactly when at least 1 h remains, with minutes in 0-59; minutes alone exactly when 1 min ≤ diff < 1 h; expired exactly when under a minute remains; the shown values bracket the time left |
| RentalsScreen.FormatTimeRemaining | app/rentals.tsx:35-48 | the label is "Expirado" exactly when less than a minute remains, including every past expiry |
| RentalsScreen.TruncatedRemainderMatters | app/rentals.tsx:40 | with a Euclidean remainder, 1 ms past expiry would show 59 minutes; the truncated one shows "Expirado" |
| RentalsScreen.LastMinuteShownExpired | app/rentals.tsx:35-48 | a rental with 30 s left is still active, yet its label reads "Expirado" |
| RentalsScreen.Tabs | app/rentals.tsx:21-22 | the active and expired tab counts are the filtered list lengths, and they add up to the number of rentals |
| WatchedScreen.FilteredHistory | app/watched.tsx:21-26 | 'all' is the history unchanged; the other tabs hold exactly the entries of their type; always a subsequence of the history |
| WatchedScreen.GetFilterCount | app/watched.tsx:59-63 | each tab's count equals the length of the list the tab shows |
| WatchedScreen.TabsPartitionHistory | app/watched.tsx:21-26 | the movie and show tabs split the history: the counts add up and the multisets add up |
| WatchedScreen.WatchedItemListedFirst | app/watched.tsx:21-26 | an item just watched is first under its type's tab and under 'all' |
| Common.DisplayTitle | app/movie-details.tsx:35 | the title is `title` for a movie and `name` for a show |
| MovieDetails.HandleAddToCart | app/movie-details.tsx:63-75 | the cart then holds exactly one rental line for the item, with its id, title, type and item, priced 999 for a movie and 1499 for a show; the total changes by that price less the replaced line's price; every other line is kept, and the cart is stored under the user's key only while someone is signed in |
| MovieDetails.AddToCartTwiceChargesOnce | app/movie-details.tsx:63-75 | a second press for the same item leaves the total unchanged |
| MovieDetails.Open | app/movie-details.tsx:33 | the screen's flag starts as the context's `isFavorite` |
| MovieDetails.HandleFavorite | app/movie-details.tsx:40-47 | the flag is negated and afterwards always agrees with the context's `isFavorite`; no other id changes |
| MovieDetails.FavoriteTwiceRestores | app/movie-details.tsx:40-47 | favouriting and then unfavouriting restores the original list |
| MovieDetails.HandleWatch | app/movie-details.tsx:49-50 | the item heads the history with the screen's type and appears once, followed by exactly the old entries with another id; ids stay unique and the history is stored under the user's key |
| AuthScreens.CheckRegister | app/register.tsx:32-50 | registration passes exactly when the name is non-empty, the email has `@`, the password is 6 or more characters and equals its confirmation; the failure reported is the first of: an empty field, no `@` in the email, a password under 6 characters, a confirmation that differs |
| AuthScreens.HandleRegister | app/register.tsx:31-60 | `register` runs only if every check passes; a failed check or a failed register shows an error and leaves the state unchanged; success alerts and goes to the login route with the user already signed in |
| AuthScreens.PasswordLengthBoundary | app/register.tsx:42-45 | a 5-character password is refused before `register` is called; 6 passes |
| AuthScreens.RegisterNewEmailSucceeds | app/register.tsx:52-56 | valid fields with a new email create the row and navigate to login |
| AuthScreens.CheckLogin | app/login.tsx:29-37 | login passes exactly when the email has `@` and the password is non-empty; emptiness is reported first |
| AuthScreens.HandleLogin | app/login.tsx:28-45 | `login` runs only if both checks pass; true goes to the tabs; false or a failed check shows an error and leaves the state unchanged, and a refused `login` shows "Credenciais inválidas" |
| AuthScreens.LoginAcceptsUnknownEmail | app/login.tsx:29-41 | there is no length check at login: an unknown email with a 1-character password signs in and creates a row, where registration would refuse that password |
| AuthScreens.LoginWrongPasswordRejected | app/login.tsx:39-44 | a stored email with a wrong password shows "Credenciais inválidas" and changes nothing |

## Left out

- Storage and I/O: AsyncStorage reads and writes, opening SQLite, and the `execAsync`/`runAsync` plumbing are not modelled. JSON (de)serialisation of stored lists is left out too. Storage is an in-memory map from key to list.
- Asynchrony: the read-modify-write races on React state and the timing of effects are not modelled. The cart's save effect is taken as running after each change. Errors that are only logged are also out of scope.
- The simulated network delay of the mock API is left out. So is `initializeApp`, which is called from the authentication context but is not part of the mock API file.
- The SQLite hook and the SQLite test service are not modelled. They wrap service calls that are not in this model.
- MovieDetails.HandleWatch: the "Assistindo!" alert and the return to the previous screen are not modelled. The success alert of MovieDetails.HandleAddToCart is left out as well.
- Rendering and navigation: the UI components, styles and animations are not modelled. Alerts and routes appear only as values that the screen handlers return.
- Floating point: prices are cents, and ratings and popularity are integers in tenths.
- Dates: `Date` parsing and the ISO and locale date strings are left out. Times are integer milliseconds.
- MovieApi.GetPopularMovies: the `page` argument is ignored, as in the source. The same holds for MovieApi.GetPopularTVShows, MovieApi.SearchMovies and MovieApi.SearchTVShows.
- Search.SearchContent: `%` and `_` inside a user query act as LIKE wildcards in SQLite. The model treats them as literal characters.
- Search.SearchContent: case folding is ASCII only, which is what SQLite's LIKE does.
- MovieApi.SearchList: case folding is ASCII only, whereas JavaScript's `toLowerCase` also folds accented letters. So the query "água" finds "Avatar: O Caminho da Água" in the app but not in the model. MovieApi.SearchMovies and MovieApi.SearchTVShows inherit this.
- Search.SaveSearchQuery: `trim` removes the ASCII white space and the few Unicode spaces listed in `Common.IsSpace`. JavaScript also trims the other Unicode space separators.
- Search.SaveSearchQuery: `searchedAt` has one-second resolution, so entries logged in the same second tie. The model assumes that log order is time order.
- Search.GetSearchHistory: which row's `searchedAt` orders a DISTINCT query is unspecified in SQL; SQLite may keep an older entry of a repeated query. The model uses each query's latest entry, but states "the newest query comes first" only for a query not logged before. Search.SavedQueryComesFirst carries the same condition.
- Search.GetPopular: the default `limit = 20` of `getPopularMovies` and `getPopularTVShows` is not modelled; the limit is always an argument.
- Ordering.Select: the tie order among rows equal on every sort key is left open. Select takes the engine's scan order as a parameter and states only the sort order, the bound and which rows may be missing.
- `getGenres` (`ORDER BY name`), `getTVShow` and `insertTVShows` are not modelled. They follow the same pattern as the modelled `getMovie`, `insertMovies` and ordered selects.
- AuthScreens.CheckRegister: the password length counts characters, not JavaScript's UTF-16 code units.
- Auth.Login and Auth.Register: the new user's id is the decimal rendering of the time. A clash with a stored id makes the insert fail, and the model returns false in that case.
- Null and undefined inputs are out of scope: strings are always present and may be empty.
- Passwords are compared in plain text, as the source does. There is no hashing.

=== FILE: auth.dfy ===
/**
 * The authentication context as a state machine over the users table. The
 * session user is the row's (id, name, email); ids of new users are the
 * decimal rendering of the creation time in milliseconds.
 */
module Auth {
  import opened Common
  import opened Users

  datatype SessionUser = SessionUser(id: string, name: string, email: string)

  datatype AuthState = AuthState(user: Option<SessionUser>, users: Table)

  /** What `login`/`register` resolve to, together with the state they leave. */
  datatype Step = Step(ok: bool, state: AuthState)

  /** `email.split('@')[0]`: everything before the first `@`. */
  function BeforeAt(s: string): (r: string)
    ensures r <= s
    ensures forall i :: 0 <= i < |r| ==> r[i] != '@'
    ensures |r| < |s| ==> s[|r|] == '@'
  {
    if |s| == 0 || s[0] == '@' then "" else [s[0]] + BeforeAt(s[1..])
  }

  function SessionOf(row: UserRow): (u: SessionUser)
    ensures u.id == row.id && u.name == row.name && u.email == row.email
  {
    SessionUser(row.id, row.name, row.email)
  }

  /** `isAuthenticated: !!user` */
  predicate IsAuthenticated(s: AuthState)
  {
    s.user.Some?
  }

  /**
   * `login(email, password)`. A stored email with the same password signs that
   * user in. Otherwise a new account named after the part of the email before
   * `@` is created and signed in; when the email is already stored (a wrong
   * password) that insert violates the UNIQUE email column, so the call
   * resolves to false and changes nothing.
   */
  function Login(s: AuthState, email: string, password: string, now: nat): (r: Step)
    requires WellFormed(s.users)
    ensures var found := GetUserByEmail(s.users, email);
            found.Some? && found.value.password == password ==>
              r == Step(true, s.(user := Some(SessionOf(found.value))))
    ensures !EmailTaken(s.users, email) && NatToString(now) !in s.users ==>
              && r.ok
              && r.state.user == Some(SessionUser(NatToString(now), BeforeAt(email), email))
              && r.state.users == s.users[NatToString(now) := UserRow(NatToString(now), BeforeAt(email), email, password, now, now)]
    ensures var found := GetUserByEmail(s.users, email);
            found.Some? && found.value.password != password ==> r == Step(false, s)
    ensures !r.ok ==> r.state == s
  {
    var found := GetUserByEmail(s.users, email);
    if found.Some? && found.value.password == password then
      Step(true, s.(user := Some(SessionOf(found.value))))
    else
      var id := NatToString(now);
      var name := BeforeAt(email);
      match CreateUser(s.users, id, name, email, password, now)
      case Failure(_) => Step(false, s)
      case Success(t) => Step(true, AuthState(Some(SessionUser(id, name, email)), t))
  }

  /**
   * `register(name, email, password)`: false with nothing changed when the
   * email is stored (or the time-derived id clashes); otherwise one new row,
   * which becomes the session user.
   */
  function Register(s: AuthState, name: string, email: string, password: string, now: nat): (r: Step)
    requires WellFormed(s.users)
    ensures EmailTaken(s.users, email) ==> r == Step(false, s)
    ensures !EmailTaken(s.users, email) && NatToString(now) !in s.users ==>
              && r.ok
              && r.state.user == Some(SessionUser(NatToString(now), name, email))
              && r.state.users == s.users[NatToString(now) := UserRow(NatToString(now), name, email, password, now, now)]
    ensures !r.ok ==> r.state == s
  {
    if GetUserByEmail(s.users, email).Some? then Step(false, s)
    else
      var id := NatToString(now);
      match CreateUser(s.users, id, name, email, password, now)
      case Failure(_) => Step(false, s)
      case Success(t) => Step(true, AuthState(Some(SessionUser(id, name, email)), t))
  }

  function Logout(s: AuthState): (r: AuthState)
    ensures !IsAuthenticated(r) && r.users == s.users
  {
    s.(user := None)
  }

  /** The users table stays well formed through every transition, and no step ever removes a row. */
  lemma TransitionsKeepWellFormed(s: AuthState, name: string, email: string, password: string, now: nat)
    requires WellFormed(s.users)
    ensures WellFormed(Login(s, email, password, now).state.users)
    ensures WellFormed(Register(s, name, email, password, now).state.users)
    ensures s.users.Keys <= Login(s, email, password, now).state.users.Keys
    ensures s.users.Keys <= Register(s, name, email, password, now).state.users.Keys
  {
    var id := NatToString(now);
    var c1 := CreateUser(s.users, id, BeforeAt(email), email, password, now);
    if c1.Success? {
      CreateUserSound(s.users, id, BeforeAt(email), email, password, now);
    }
    var c2 := CreateUser(s.users, id, name, email, password, now);
    if c2.Success? {
      CreateUserSound(s.users, id, name, email, password, now);
    }
  }

  /** After a successful register, logging in with the same credentials succeeds as that user and adds no row. */
  lemma RegisterThenLogin(s: AuthState, name: string, email: string, password: string, t1: nat, t2: nat)
    requires WellFormed(s.users)
    requires Register(s, name, email, password, t1).ok
    ensures var s1 := Register(s, name, email, password, t1).state;
            WellFormed(s1.users) &&
            var r := Login(Logout(s1), email, password, t2);
            r.ok && r.state.users == s1.users && r.state.user == s1.user
  {
    var id := NatToString(t1);
    CreateUserSound(s.users, id, name, email, password, t1);
  }

  /** A failed login always means the email was stored with a different password. */
  lemma LoginFailureMeansWrongPassword(s: AuthState, email: string, password: string, now: nat)
    requires WellFormed(s.users)
    requires !Login(s, email, password, now).ok
    requires NatToString(now) !in s.users
    ensures EmailTaken(s.users, email)
    ensures GetUserByEmail(s.users, email).value.password != password
  {
  }
}

=== FILE: auth_screens.dfy ===
/**
 * The register and login screens: the field checks they run, in order, before
 * calling the authentication context, the alert each path shows and where a
 * success navigates. Alerts are modelled as (title, message) pairs; the
 * navigation of the register screen happens when its success alert is
 * dismissed.
 */
module AuthScreens {
  import opened Common
  import Users
  import Auth

  datatype Alert = Alert(title: string, message: string)

  /** What a submit press leaves behind: an alert (if any), a route (if any) and the authentication state. */
  datatype Outcome = Outcome(alert: Option<Alert>, goTo: Option<string>, state: Auth.AuthState)

  const MinPasswordLength: nat := 6

  const MissingFieldsMsg: string := "Por favor, preencha todos os campos"
  const InvalidEmailMsg: string := "Por favor, insira um email válido"
  const ShortPasswordMsg: string := "A senha deve ter pelo menos 6 caracteres"
  const MismatchMsg: string := "As senhas não coincidem"
  const CreatedMsg: string := "Conta criada com sucesso!"
  const CreateFailedMsg: string := "Falha ao criar conta"
  const BadCredentialsMsg: string := "Credenciais inválidas"

  const LoginRoute: string := "/login"
  const TabsRoute: string := "/(tabs)"

  // ---------------------------------------------------------------------
  // Register
  // ---------------------------------------------------------------------

  datatype RegisterCheck = MissingFields | InvalidEmail | ShortPassword | PasswordMismatch | RegisterOk

  /** The four guards of `handleRegister`, first failing one wins; an empty string is falsy. */
  function CheckRegister(name: string, email: string, password: string, confirm: string): (c: RegisterCheck)
    ensures c == RegisterOk <==>
              name != "" && '@' in email && |password| >= 6 && password == confirm
    ensures c == MissingFields <==> name == "" || email == "" || password == "" || confirm == ""
    ensures c == InvalidEmail <==>
              name != "" && email != "" && password != "" && confirm != "" && '@' !in email
    ensures c == ShortPassword <==>
              name != "" && email != "" && password != "" && confirm != "" && '@' in email
              && |password| < 6
    ensures c == PasswordMismatch <==>
              name != "" && email != "" && password != "" && confirm != "" && '@' in email
              && |password| >= 6 && password != confirm
  {
    if name == "" || email == "" || password == "" || confirm == "" then MissingFields
    else if '@' !in email then InvalidEmail
    else if |password| < MinPasswordLength then ShortPassword
    else if password != confirm then PasswordMismatch
    else RegisterOk
  }

  function RegisterMessage(c: RegisterCheck): string
  {
    match c
    case MissingFields => MissingFieldsMsg
    case InvalidEmail => InvalidEmailMsg
    case ShortPassword => ShortPasswordMsg
    case PasswordMismatch => MismatchMsg
    case RegisterOk => CreatedMsg
  }

  /**
   * `handleRegister`. A failed check shows its message and leaves the state
   * alone; otherwise `register` runs, and on success the user, already signed
   * in by the context, is sent to the login screen.
   */
  function HandleRegister(s: Auth.AuthState, name: string, email: string, password: string,
                          confirm: string, now: nat): (r: Outcome)
    requires Users.WellFormed(s.users)
    ensures r.alert.Some?
    ensures r.goTo.Some? <==>
              CheckRegister(name, email, password, confirm) == RegisterOk
              && Auth.Register(s, name, email, password, now).ok
    ensures r.goTo.Some? ==> r.goTo == Some(LoginRoute) && r.alert == Some(Alert("Sucesso", CreatedMsg))
    ensures r.goTo.None? ==> r.state == s && r.alert.value.title == "Erro"
    ensures r.goTo.Some? ==>
              Auth.IsAuthenticated(r.state) && r.state.user.value.email == email
              && r.state.user.value.name == name
  {
    var c := CheckRegister(name, email, password, confirm);
    if c != RegisterOk then Outcome(Some(Alert("Erro", RegisterMessage(c))), None, s)
    else
      var step := Auth.Register(s, name, email, password, now);
      if step.ok then
        assert !Users.EmailTaken(s.users, email);
        Outcome(Some(Alert("Sucesso", CreatedMsg)), Some(LoginRoute), step.state)
      else Outcome(Some(Alert("Erro", CreateFailedMsg)), None, s)
  }

  /** Five characters are refused before the context is called; six pass the length guard. */
  lemma PasswordLengthBoundary(s: Auth.AuthState, now: nat)
    requires Users.WellFormed(s.users)
    ensures HandleRegister(s, "Ana", "ana@x.com", "12345", "12345", now)
              == Outcome(Some(Alert("Erro", ShortPasswordMsg)), None, s)
    ensures CheckRegister("Ana", "ana@x.com", "123456", "123456") == RegisterOk
  {
    assert '@' in "ana@x.com" by {
      assert "ana@x.com"[3] == '@';
    }
  }

  /** A new email always registers: the row is created and the screen moves on to the login route. */
  lemma RegisterNewEmailSucceeds(s: Auth.AuthState, name: string, email: string, password: string, now: nat)
    requires Users.WellFormed(s.users)
    requires CheckRegister(name, email, password, password) == RegisterOk
    requires !Users.EmailTaken(s.users, email) && NatToString(now) !in s.users
    ensures var r := HandleRegister(s, name, email, password, password, now);
            && r.goTo == Some(LoginRoute)
            && NatToString(now) in r.state.users
            && r.state.users[NatToString(now)].password == password
  {
  }

  // ---------------------------------------------------------------------
  // Login
  // ---------------------------------------------------------------------

  datatype LoginCheck = LoginMissing | LoginInvalidEmail | LoginOk

  /** The two guards of `handleLogin`; unlike registration there is no length rule. */
  function CheckLogin(email: string, password: string): (c: LoginCheck)
    ensures c == LoginOk <==> '@' in email && password != ""
    ensures c == LoginMissing <==> email == "" || password == ""
  {
    if email == "" || password == "" then LoginMissing
    else if '@' !in email then LoginInvalidEmail
    else LoginOk
  }

  /**
   * `handleLogin`: a failed check alerts and changes nothing; a resolved
   * `login` goes to the tabs without an alert; a rejected one alerts that the
   * credentials are invalid.
   */
  function HandleLogin(s: Auth.AuthState, email: string, password: string, now: nat): (r: Outcome)
    requires Users.WellFormed(s.users)
    ensures r.goTo.Some? <==> CheckLogin(email, password) == LoginOk && Auth.Login(s, email, password, now).ok
    ensures r.goTo.Some? ==> r.goTo == Some(TabsRoute) && r.alert.None? && Auth.IsAuthenticated(r.state)
    ensures r.goTo.None? ==> r.state == s && r.alert.Some? && r.alert.value.title == "Erro"
    ensures CheckLogin(email, password) == LoginOk && r.goTo.None? ==>
              r.alert == Some(Alert("Erro", BadCredentialsMsg))
  {
    match CheckLogin(email, password)
    case LoginMissing => Outcome(Some(Alert("Erro", MissingFieldsMsg)), None, s)
    case LoginInvalidEmail => Outcome(Some(Alert("Erro", InvalidEmailMsg)), None, s)
    case LoginOk =>
      var step := Auth.Login(s, email, password, now);
      if step.ok then
        assert step.state.user.Some?;
        Outcome(None, Some(TabsRoute), step.state)
      else Outcome(Some(Alert("Erro", BadCredentialsMsg)), None, s)
  }

  /**
   * The login screen signs in any unknown email, creating its account on the
   * way, even with a one-character password the register screen would refuse.
   */
  lemma LoginAcceptsUnknownEmail(s: Auth.AuthState, email: string, now: nat)
    requires Users.WellFormed(s.users)
    requires '@' in email && !Users.EmailTaken(s.users, email) && NatToString(now) !in s.users
    ensures var r := HandleLogin(s, email, "x", now);
            && r.goTo == Some(TabsRoute)
            && |r.state.users| == |s.users| + 1
    ensures CheckRegister("x", email, "x", "x") == ShortPassword
  {
    var t := s.users[NatToString(now) := Users.UserRow(NatToString(now), Auth.BeforeAt(email), email, "x", now, now)];
    assert t.Keys == s.users.Keys + {NatToString(now)};
  }

  /** A stored email with the wrong password is turned away without touching the state. */
  lemma LoginWrongPasswordRejected(s: Auth.AuthState, email: string, password: string, now: nat)
    requires Users.WellFormed(s.users)
    requires CheckLogin(email, password) == LoginOk
    requires Users.EmailTaken(s.users, email)
    requires Users.GetUserByEmail(s.users, email).value.password != password
    ensures HandleLogin(s, email, password, now) == Outcome(Some(Alert("Erro", BadCredentialsMsg)), None, s)
  {
  }
}

=== FILE: cart.dfy ===
/**
 * The cart ledger: at most one line per (content id, line type), where adding
 * a line for a pair already present overwrites that line in place, and the
 * total is the sum of the line prices (in cents).
 */
module Cart {
  import opened Common
  import opened UserScope

  const Prefix: string := "cart"

  datatype LineType = Rent | Buy

  /** A cart line without its id: what `addItem` receives. */
  datatype Draft = Draft(movieId: int, title: string, posterPath: string, price: int,
                         lineType: LineType, itemType: MediaKind, fullItem: Content)

  datatype CartItem = CartItem(id: string, movieId: int, title: string, posterPath: string,
                               price: int, lineType: LineType, itemType: MediaKind,
                               fullItem: Content)

  function LineTypeName(t: LineType): string
  {
    match t
    case Rent => "rent"
    case Buy => "buy"
  }

  /** The id `${movieId}-${type}-${Date.now()}` of a line created at `now`. */
  function LineId(movieId: int, t: LineType, now: nat): string
  {
    IntToString(movieId) + "-" + LineTypeName(t) + "-" + NatToString(now)
  }

  function MakeLine(d: Draft, now: nat): (c: CartItem)
    ensures c.id == LineId(d.movieId, d.lineType, now)
    ensures c.movieId == d.movieId && c.title == d.title && c.posterPath == d.posterPath
    ensures c.price == d.price && c.lineType == d.lineType && c.itemType == d.itemType
    ensures c.fullItem == d.fullItem
  {
    CartItem(LineId(d.movieId, d.lineType, now), d.movieId, d.title, d.posterPath,
             d.price, d.lineType, d.itemType, d.fullItem)
  }

  predicate SameKey(c: CartItem, movieId: int, t: LineType)
  {
    c.movieId == movieId && c.lineType == t
  }

  /** `findIndex`: the first line for (movieId, t), or -1. */
  function FindLine(items: seq<CartItem>, movieId: int, t: LineType): (k: int)
    ensures -1 <= k < |items|
    ensures k == -1 <==> forall j :: 0 <= j < |items| ==> !SameKey(items[j], movieId, t)
    ensures k >= 0 ==> SameKey(items[k], movieId, t)
    ensures k >= 0 ==> forall j :: 0 <= j < k ==> !SameKey(items[j], movieId, t)
  {
    if |items| == 0 then -1
    else if SameKey(items[0], movieId, t) then 0
    else
      var k := FindLine(items[1..], movieId, t);
      if k < 0 then -1 else k + 1
  }

  /** At most one line per (content id, line type). */
  predicate KeysUnique(items: seq<CartItem>)
  {
    forall i, j :: 0 <= i < j < |items| ==>
      !SameKey(items[j], items[i].movieId, items[i].lineType)
  }

  /** `addItem`: overwrite the line with the same key in place, or append. */
  function AddItem(items: seq<CartItem>, d: Draft, now: nat): (r: seq<CartItem>)
    ensures var k := FindLine(items, d.movieId, d.lineType);
            k >= 0 ==> |r| == |items| && r[k] == MakeLine(d, now)
                       && forall j :: 0 <= j < |items| && j != k ==> r[j] == items[j]
    ensures FindLine(items, d.movieId, d.lineType) < 0 ==> r == items + [MakeLine(d, now)]
  {
    var line := MakeLine(d, now);
    var k := FindLine(items, d.movieId, d.lineType);
    if k >= 0 then items[k := line] else items + [line]
  }

  lemma AddItemKeepsKeysUnique(items: seq<CartItem>, d: Draft, now: nat)
    requires KeysUnique(items)
    ensures KeysUnique(AddItem(items, d, now))
  {
    var r := AddItem(items, d, now);
    var k := FindLine(items, d.movieId, d.lineType);
    if k >= 0 {
      forall i, j | 0 <= i < j < |r|
        ensures !SameKey(r[j], r[i].movieId, r[i].lineType)
      {
        if i == k {
          assert SameKey(items[k], r[i].movieId, r[i].lineType);
        } else if j == k {
          assert SameKey(items[k], r[j].movieId, r[j].lineType);
        }
      }
    }
  }

  /** After `addItem` the cart holds exactly one line for the draft's key, carrying the draft's fields. */
  lemma AddItemSingleLineForKey(items: seq<CartItem>, d: Draft, now: nat)
    requires KeysUnique(items)
    ensures var r := AddItem(items, d, now);
            forall j :: 0 <= j < |r| && SameKey(r[j], d.movieId, d.lineType) ==> r[j] == MakeLine(d, now)
  {
  }

  /** `removeItem`: drop every line with that id; every other line keeps all its copies. */
  function RemoveItem(items: seq<CartItem>, id: string): (r: seq<CartItem>)
    ensures forall c :: c in r <==> c in items && c.id != id
    ensures IsSubsequence(r, items)
  {
    var keep := (c: CartItem) => c.id != id;
    FilterIsSubsequence(items, keep);
    Filter(items, keep)
  }

  /** `removeItem` loses no copy of a line it keeps. */
  lemma RemoveItemCounts(items: seq<CartItem>, id: string)
    ensures forall c :: multiset(RemoveItem(items, id))[c] == if c.id != id then multiset(items)[c] else 0
  {
    FilterMultiset(items, (c: CartItem) => c.id != id);
  }

  /** `removeItem` keeps at most one line per (movieId, type). */
  lemma RemoveItemKeepsKeysUnique(items: seq<CartItem>, id: string)
    requires KeysUnique(items)
    ensures KeysUnique(RemoveItem(items, id))
  {
    var keep := (c: CartItem) => c.id != id;
    var ok := (a: CartItem, b: CartItem) => !SameKey(b, a.movieId, a.lineType);
    assert forall i, j :: 0 <= i < j < |items| ==> ok(items[i], items[j]);
    FilterPairwise(items, keep, ok);
    var r := Filter(items, keep);
    assert forall i, j :: 0 <= i < j < |r| ==> ok(r[i], r[j]);
    assert RemoveItem(items, id) == r;
  }

  function ClearCart(items: seq<CartItem>): (r: seq<CartItem>)
    ensures |r| == 0
  {
    []
  }

  /** The cart's `total`: the sum of the line prices, 0 for an empty cart. */
  function Total(items: seq<CartItem>): int
  {
    if |items| == 0 then 0 else Total(items[..|items| - 1]) + items[|items| - 1].price
  }

  lemma {:induction false} TotalAppend(a: seq<CartItem>, b: seq<CartItem>)
    ensures Total(a + b) == Total(a) + Total(b)
    decreases |b|
  {
    if |b| > 0 {
      assert (a + b)[..|a + b| - 1] == a + b[..|b| - 1];
      TotalAppend(a, b[..|b| - 1]);
    } else {
      assert a + b == a;
    }
  }

  /** Replacing one line moves the total by exactly the price difference. */
  lemma TotalUpdate(items: seq<CartItem>, k: nat, c: CartItem)
    requires k < |items|
    ensures Total(items[k := c]) == Total(items) - items[k].price + c.price
  {
    assert items == items[..k] + [items[k]] + items[k + 1..];
    assert items[k := c] == items[..k] + [c] + items[k + 1..];
    TotalAppend(items[..k] + [items[k]], items[k + 1..]);
    TotalAppend(items[..k] + [c], items[k + 1..]);
    TotalAppend(items[..k], [items[k]]);
    TotalAppend(items[..k], [c]);
  }

  /** The total after `addItem`: the old total plus the new price, less the price of the line it replaced. */
  lemma AddItemTotal(items: seq<CartItem>, d: Draft, now: nat)
    ensures var k := FindLine(items, d.movieId, d.lineType);
            Total(AddItem(items, d, now))
              == Total(items) + d.price - (if k >= 0 then items[k].price else 0)
  {
    var k := FindLine(items, d.movieId, d.lineType);
    if k >= 0 {
      TotalUpdate(items, k, MakeLine(d, now));
    } else {
      TotalAppend(items, [MakeLine(d, now)]);
    }
  }

  /** Two additions for the same key leave one line, priced as the second. */
  lemma {:induction false} AddTwiceLastWins(items: seq<CartItem>, d1: Draft, d2: Draft, t1: nat, t2: nat)
    requires KeysUnique(items)
    requires d1.movieId == d2.movieId && d1.lineType == d2.lineType
    ensures var r := AddItem(AddItem(items, d1, t1), d2, t2);
            && |Filter(r, (c: CartItem) => SameKey(c, d1.movieId, d1.lineType))| == 1
            && Filter(r, (c: CartItem) => SameKey(c, d1.movieId, d1.lineType))[0].price == d2.price
  {
    var r1 := AddItem(items, d1, t1);
    AddItemKeepsKeysUnique(items, d1, t1);
    var r := AddItem(r1, d2, t2);
    AddItemKeepsKeysUnique(r1, d2, t2);
    AddItemSingleLineForKey(r1, d2, t2);
    var k := FindLine(r1, d2.movieId, d2.lineType);
    assert k >= 0 by {
      var k1 := FindLine(items, d1.movieId, d1.lineType);
      if k1 < 0 {
        assert SameKey(r1[|items|], d2.movieId, d2.lineType);
      } else {
        assert SameKey(r1[k1], d2.movieId, d2.lineType);
      }
    }
    UniqueKeyFilter(r, k, d1.movieId, d1.lineType);
  }

  /** In a cart with unique keys, the lines for one key are exactly the one at index `k`. */
  lemma {:induction false} UniqueKeyFilter(items: seq<CartItem>, k: nat, movieId: int, t: LineType)
    requires KeysUnique(items) && k < |items| && SameKey(items[k], movieId, t)
    ensures Filter(items, (c: CartItem) => SameKey(c, movieId, t)) == [items[k]]
  {
    var p := (c: CartItem) => SameKey(c, movieId, t);
    assert items == items[..k] + [items[k]] + items[k + 1..];
    FilterNone(items[..k], p);
    FilterNone(items[k + 1..], p);
    FilterConcat(items[..k] + [items[k]], items[k + 1..], p);
    FilterConcat(items[..k], [items[k]], p);
  }

  // ---------------------------------------------------------------------
  // The cart as the provider holds it: scoped to the signed-in user
  // ---------------------------------------------------------------------

  /** The user-reset effect: with nobody signed in the cart is empty. */
  lemma SignedOutCartEmpty(sc: Scope<CartItem>)
    ensures OnUserChanged(sc, Prefix, None).memory == []
  {
  }

  /** `addItem` on the provider: update the list, then the save effect writes it if someone is signed in. */
  function ProviderAddItem(sc: Scope<CartItem>, user: Option<string>, d: Draft, now: nat): (r: Scope<CartItem>)
    ensures r.memory == AddItem(sc.memory, d, now)
    ensures user.None? ==> r.saved == sc.saved
    ensures user.Some? ==> StorageKey(Prefix, user) in r.saved
                           && r.saved[StorageKey(Prefix, user)] == r.memory
  {
    CommitSignedIn(sc, Prefix, user, AddItem(sc.memory, d, now))
  }
}

=== FILE: catalog.dfy ===
/**
 * The local relational store of the database service: the `movies` and
 * `tv_shows` tables keyed by their integer primary key, the `genres` table
 * (id -> name, names unique), the `search_history` log and the `users`
 * table. Statements become pure functions from one store to the next.
 */
module Catalog {
  import opened Common
  import Users

  /** A row of `movies` or `tv_shows`: the item plus the interaction flags the schema adds. */
  datatype Row = Row(content: Content, isFavorite: bool, isWatched: bool, isRented: bool,
                     createdAt: int, updatedAt: int)

  type ContentTable = map<int, Row>

  datatype SearchEntry = SearchEntry(query: string, searchedAt: int)

  datatype Genre = Genre(id: int, name: string)

  datatype Db = Db(movies: ContentTable, shows: ContentTable, genres: map<int, string>,
                   searchHistory: seq<SearchEntry>, users: Users.Table)

  /** The primary key of each row is its item's id. */
  predicate WellKeyed(t: ContentTable)
  {
    forall k :: k in t ==> t[k].content.id == k
  }

  predicate GenreNamesUnique(g: map<int, string>)
  {
    forall a, b :: a in g && b in g && g[a] == g[b] ==> a == b
  }

  /**
   * The row INSERT OR REPLACE writes. The flag columns are not in the
   * statement's column list, so they take their defaults (0), as do the
   * timestamps (`updatedAt` is given explicitly).
   */
  function FreshRow(c: Content, now: int): (r: Row)
    ensures r.content == c && r.updatedAt == now
    ensures !r.isFavorite && !r.isWatched && !r.isRented
  {
    Row(c, false, false, false, now, now)
  }

  /** `insertMovie`: replace by id; afterwards exactly one row has that id and its flags are cleared. */
  function InsertMovie(db: Db, m: Content, now: int): (r: Db)
    requires m.Movie?
    ensures m.id in r.movies && r.movies[m.id].content == m
    ensures !r.movies[m.id].isFavorite && !r.movies[m.id].isWatched && !r.movies[m.id].isRented
    ensures r.movies.Keys == db.movies.Keys + {m.id}
    ensures forall k :: k in db.movies && k != m.id ==> r.movies[k] == db.movies[k]
    ensures r.shows == db.shows && r.genres == db.genres
    ensures r.searchHistory == db.searchHistory && r.users == db.users
  {
    db.(movies := db.movies[m.id := FreshRow(m, now)])
  }

  /** `insertTVShow`: the same for the `tv_shows` table. */
  function InsertTVShow(db: Db, s: Content, now: int): (r: Db)
    requires s.Show?
    ensures s.id in r.shows && r.shows[s.id].content == s
    ensures !r.shows[s.id].isFavorite && !r.shows[s.id].isWatched && !r.shows[s.id].isRented
    ensures r.shows.Keys == db.shows.Keys + {s.id}
    ensures forall k :: k in db.shows && k != s.id ==> r.shows[k] == db.shows[k]
    ensures r.movies == db.movies && r.genres == db.genres
    ensures r.searchHistory == db.searchHistory && r.users == db.users
  {
    db.(shows := db.shows[s.id := FreshRow(s, now)])
  }

  /** Re-inserting a catalog movie silently drops the user's favourite flag. */
  lemma ReinsertClearsFavorite(db: Db, m: Content, now: int)
    requires m.Movie? && m.id in db.movies && db.movies[m.id].isFavorite
    ensures !InsertMovie(db, m, now).movies[m.id].isFavorite
  {
  }

  lemma InsertKeepsWellKeyed(db: Db, m: Content, s: Content, now: int)
    requires WellKeyed(db.movies) && WellKeyed(db.shows) && m.Movie? && s.Show?
    ensures WellKeyed(InsertMovie(db, m, now).movies)
    ensures WellKeyed(InsertTVShow(db, s, now).shows)
  {
  }

  function ContentIds(ms: seq<Content>): (ids: set<int>)
    ensures forall i :: 0 <= i < |ms| ==> ms[i].id in ids
    ensures forall k :: k in ids ==> exists i :: 0 <= i < |ms| && ms[i].id == k
  {
    if |ms| == 0 then {}
    else
      var rest := ContentIds(ms[1..]);
      assert forall k :: k in rest ==> exists i :: 0 <= i < |ms| && ms[i].id == k by {
        forall k | k in rest ensures exists i :: 0 <= i < |ms| && ms[i].id == k {
          var i :| 0 <= i < |ms[1..]| && ms[1..][i].id == k;
          assert ms[i + 1].id == k;
        }
      }
      {ms[0].id} + rest
  }

  /** `insertMovies`: one `insertMovie` per element, in order. */
  function InsertMovies(db: Db, ms: seq<Content>, now: int): (r: Db)
    requires forall i :: 0 <= i < |ms| ==> ms[i].Movie?
    ensures r.movies.Keys == db.movies.Keys + ContentIds(ms)
    ensures forall i :: 0 <= i < |ms| ==>
              !r.movies[ms[i].id].isFavorite && !r.movies[ms[i].id].isWatched && !r.movies[ms[i].id].isRented
    ensures forall k :: k in db.movies && k !in ContentIds(ms) ==> r.movies[k] == db.movies[k]
    ensures r.shows == db.shows && r.genres == db.genres && r.users == db.users
    ensures r.searchHistory == db.searchHistory
    decreases |ms|
  {
    if |ms| == 0 then db
    else InsertMovies(InsertMovie(db, ms[0], now), ms[1..], now)
  }

  /** Each inserted id ends up holding the last movie given with that id. */
  lemma {:induction false} InsertMoviesLastWins(db: Db, ms: seq<Content>, now: int, i: nat)
    requires forall k :: 0 <= k < |ms| ==> ms[k].Movie?
    requires i < |ms| && forall j :: i < j < |ms| ==> ms[j].id != ms[i].id
    ensures InsertMovies(db, ms, now).movies[ms[i].id].content == ms[i]
    decreases |ms|
  {
    var db1 := InsertMovie(db, ms[0], now);
    if i > 0 {
      assert ms[1..][i - 1] == ms[i];
      InsertMoviesLastWins(db1, ms[1..], now, i - 1);
    } else {
      assert ms[0].id in db1.movies;
    }
  }

  predicate NameStored(g: map<int, string>, name: string)
  {
    exists k :: k in g && g[k] == name
  }

  /** INSERT OR IGNORE of one genre: ignored when its id or its (UNIQUE) name is already stored. */
  function InsertGenre(g: map<int, string>, genre: Genre): (r: map<int, string>)
    ensures genre.id in g || NameStored(g, genre.name) ==> r == g
    ensures !(genre.id in g || NameStored(g, genre.name)) ==> r == g[genre.id := genre.name]
  {
    if genre.id in g || NameStored(g, genre.name) then g else g[genre.id := genre.name]
  }

  /** `insertGenres`: insert-or-ignore each genre in order. */
  function InsertGenres(g: map<int, string>, genres: seq<Genre>): (r: map<int, string>)
    decreases |genres|
  {
    if |genres| == 0 then g else InsertGenres(InsertGenre(g, genres[0]), genres[1..])
  }

  /** Genres already stored are never changed, names stay unique, and every given genre's id or name ends up stored. */
  lemma {:induction false} InsertGenresSpec(g: map<int, string>, genres: seq<Genre>)
    requires GenreNamesUnique(g)
    ensures var r := InsertGenres(g, genres);
            && GenreNamesUnique(r)
            && (forall k :: k in g ==> k in r && r[k] == g[k])
            && (forall i :: 0 <= i < |genres| ==> genres[i].id in r || NameStored(r, genres[i].name))
    decreases |genres|
  {
    if |genres| > 0 {
      var g1 := InsertGenre(g, genres[0]);
      assert GenreNamesUnique(g1);
      InsertGenresSpec(g1, genres[1..]);
      var r := InsertGenres(g, genres);
      assert genres[0].id in g1 || NameStored(g1, genres[0].name);
      if !(genres[0].id in g1) {
        var k :| k in g1 && g1[k] == genres[0].name;
        assert k in r && r[k] == genres[0].name;
      }
      forall i | 1 <= i < |genres| ensures genres[i].id in r || NameStored(r, genres[i].name) {
        assert genres[1..][i - 1] == genres[i];
      }
    }
  }

  /** `getMovie`: the row under that id, if any. */
  function GetMovie(db: Db, id: int): (r: Option<Row>)
    ensures r.Some? <==> id in db.movies
    ensures r.Some? ==> r.value == db.movies[id]
  {
    if id in db.movies then Some(db.movies[id]) else None
  }

  datatype Toggled = Toggled(isFavorite: bool, db: Db)

  /**
   * `toggleMovieFavorite`: fails for an unknown id; otherwise stores and
   * returns the negation of the stored flag and stamps `updatedAt`.
   */
  function ToggleMovieFavorite(db: Db, id: int, now: int): (r: Result<Toggled>)
    ensures r.Failure? <==> id !in db.movies
    ensures r.Success? ==>
              && r.value.isFavorite == !db.movies[id].isFavorite
              && r.value.db == db.(movies := db.movies[id := db.movies[id].(isFavorite := r.value.isFavorite, updatedAt := now)])
  {
    match GetMovie(db, id)
    case None => Failure("Failed to toggle movie favorite")
    case Some(row) =>
      var status := !row.isFavorite;
      Success(Toggled(status, db.(movies := db.movies[id := row.(isFavorite := status, updatedAt := now)])))
  }

  /** Toggling twice restores the flag; only the row's `updatedAt` differs. */
  lemma ToggleTwice(db: Db, id: int, t1: int, t2: int)
    requires id in db.movies
    ensures var a := ToggleMovieFavorite(db, id, t1).value;
            var b := ToggleMovieFavorite(a.db, id, t2);
            && b.Success?
            && b.value.isFavorite == db.movies[id].isFavorite
            && b.value.db == db.(movies := db.movies[id := db.movies[id].(updatedAt := t2)])
  {
  }

  /** The ids the `isFavorite = 1` query selects. */
  function FavoriteMovieIds(db: Db): set<int>
  {
    set k | k in db.movies && db.movies[k].isFavorite
  }

  /** Favouriting an unflagged movie through a toggle adds exactly its id to the favourite set, and a second toggle takes it out again. */
  lemma ToggleFavoriteSet(db: Db, id: int, t1: int, t2: int)
    requires id in db.movies && !db.movies[id].isFavorite
    ensures var a := ToggleMovieFavorite(db, id, t1).value;
            && a.isFavorite
            && FavoriteMovieIds(a.db) == FavoriteMovieIds(db) + {id}
            && FavoriteMovieIds(ToggleMovieFavorite(a.db, id, t2).value.db) == FavoriteMovieIds(db)
  {
  }

  /** `clearAllData`: empties movies, shows, genres and the search log; users are kept. */
  function ClearAllData(db: Db): (r: Db)
    ensures r.movies == map[] && r.shows == map[] && r.genres == map[] && r.searchHistory == []
    ensures r.users == db.users
  {
    Db(map[], map[], map[], [], db.users)
  }

  function ClearSearchHistory(db: Db): (r: Db)
    ensures r.searchHistory == [] && r == db.(searchHistory := [])
  {
    db.(searchHistory := [])
  }

  datatype Stats = Stats(moviesCount: nat, tvShowsCount: nat, genresCount: nat)

  /** `getDatabaseStats`: the row count of each catalog table. */
  function GetDatabaseStats(db: Db): Stats
  {
    Stats(|db.movies|, |db.shows|, |db.genres|)
  }

  /** The statistics after clearing are zero, and inserting a movie adds one to the count only for an id not stored yet. */
  lemma StatsAfterWrites(db: Db, m: Content, now: int)
    requires m.Movie?
    ensures GetDatabaseStats(ClearAllData(db)) == Stats(0, 0, 0)
    ensures GetDatabaseStats(InsertMovie(db, m, now)).moviesCount
              == if m.id in db.movies then |db.movies| else |db.movies| + 1
    ensures GetDatabaseStats(InsertMovie(db, m, now)).tvShowsCount == |db.shows|
  {
    var r := InsertMovie(db, m, now);
    if m.id in db.movies {
      assert r.movies.Keys == db.movies.Keys;
    } else {
      assert r.movies.Keys == db.movies.Keys + {m.id};
    }
  }

  /** `createUser` against the store: fails, leaving everything unchanged, on a stored id or email. */
  function CreateUser(db: Db, id: string, name: string, email: string, password: string, now: int): (r: Result<Db>)
    ensures r.Failure? <==> id in db.users || Users.EmailTaken(db.users, email)
    ensures r.Success? ==> r.value == db.(users := db.users[id := Users.UserRow(id, name, email, password, now, now)])
  {
    match Users.CreateUser(db.users, id, name, email, password, now)
    case Failure(e) => Failure(e)
    case Success(t) => Success(db.(users := t))
  }
}

=== FILE: common.dfy ===
/**
 * Shared vocabulary of the CineApp model: failure-carrying results, the
 * content items (movies and TV shows) every ledger stores, an order-preserving
 * filter, and the handful of string routines the application relies on
 * (ASCII lower-casing, substring search, whitespace trimming, decimal
 * rendering of integers).
 */
module Common {

  datatype Option<T> = None | Some(value: T)

  datatype Result<T> = Success(value: T) | Failure(error: string)

  /** The `type: 'movie' | 'tv'` tag the screens and ledgers pass around. */
  datatype MediaKind = MovieKind | TvKind

  /**
   * A catalog item. A movie carries `title`/`release_date`/`original_title`/`video`,
   * a show `name`/`first_air_date`/`original_name`/`origin_country`.
   * Ratings and popularity are kept in tenths (8.2 is 82).
   */
  datatype Content =
    | Movie(id: int, title: string, overview: string, posterPath: string,
            backdropPath: string, releaseDate: string, voteAverage: int,
            voteCount: int, genreIds: seq<int>, adult: bool,
            originalLanguage: string, originalTitle: string, popularity: int,
            video: bool)
    | Show(id: int, name: string, overview: string, posterPath: string,
           backdropPath: string, firstAirDate: string, voteAverage: int,
           voteCount: int, genreIds: seq<int>, adult: bool,
           originalLanguage: string, originalName: string, popularity: int,
           originCountry: seq<string>)

  /** `'title' in item ? item.title : item.name` */
  function DisplayTitle(c: Content): (t: string)
    ensures c.Movie? ==> t == c.title
    ensures c.Show? ==> t == c.name
  {
    match c
    case Movie(_, title, _, _, _, _, _, _, _, _, _, _, _, _) => title
    case Show(_, name, _, _, _, _, _, _, _, _, _, _, _, _) => name
  }

  // ---------------------------------------------------------------------
  // Order-preserving filter (Array.prototype.filter)
  // ---------------------------------------------------------------------

  function Filter<T(!new)>(s: seq<T>, p: T -> bool): (r: seq<T>)
    ensures |r| <= |s|
    ensures forall x :: x in r <==> x in s && p(x)
  {
    if |s| == 0 then []
    else if p(s[0]) then [s[0]] + Filter(s[1..], p)
    else Filter(s[1..], p)
  }

  /** `sub` can be obtained from `s` by deleting elements. */
  predicate IsSubsequence<T(==)>(sub: seq<T>, s: seq<T>)
  {
    if |sub| == 0 then true
    else if |s| == 0 then false
    else if sub[0] == s[0] then IsSubsequence(sub[1..], s[1..])
    else IsSubsequence(sub, s[1..])
  }

  lemma {:induction false} SubsequenceOfTail<T>(sub: seq<T>, s: seq<T>)
    requires |s| > 0 && IsSubsequence(sub, s[1..])
    ensures IsSubsequence(sub, s)
    decreases |s|, 0
  {
    if |sub| > 0 && sub[0] == s[0] {
      SubsequenceDropHead(sub, s[1..]);
    }
  }

  lemma {:induction false} SubsequenceDropHead<T>(sub: seq<T>, t: seq<T>)
    requires |sub| > 0 && IsSubsequence(sub, t)
    ensures IsSubsequence(sub[1..], t)
    decreases |t|, 1
  {
    if sub[0] == t[0] {
      if |t| > 0 {
        SubsequenceOfTail(sub[1..], t);
      }
    } else {
      SubsequenceDropHead(sub, t[1..]);
      SubsequenceOfTail(sub[1..], t);
    }
  }

  lemma {:induction false} FilterIsSubsequence<T(!new)>(s: seq<T>, p: T -> bool)
    ensures IsSubsequence(Filter(s, p), s)
  {
    if |s| > 0 {
      FilterIsSubsequence(s[1..], p);
      if !p(s[0]) {
        SubsequenceOfTail(Filter(s[1..], p), s);
      }
    }
  }

  /** Filtering by a predicate and by its negation splits the list. */
  lemma {:induction false} FilterPartition<T(!new)>(s: seq<T>, p: T -> bool, q: T -> bool)
    requires forall x :: q(x) == !p(x)
    ensures |Filter(s, p)| + |Filter(s, q)| == |s|
    ensures multiset(Filter(s, p)) + multiset(Filter(s, q)) == multiset(s)
  {
    if |s| > 0 {
      FilterPartition(s[1..], p, q);
      assert s == [s[0]] + s[1..];
    }
  }

  /** A filter that keeps everything is the identity. */
  lemma {:induction false} FilterAll<T(!new)>(s: seq<T>, p: T -> bool)
    requires forall x :: x in s ==> p(x)
    ensures Filter(s, p) == s
  {
    if |s| > 0 {
      FilterAll(s[1..], p);
      assert s == [s[0]] + s[1..];
    }
  }

  /** Filtering with the same predicate twice changes nothing more. */
  lemma {:induction false} FilterIdempotent<T(!new)>(s: seq<T>, p: T -> bool)
    ensures Filter(Filter(s, p), p) == Filter(s, p)
  {
    FilterAll(Filter(s, p), p);
  }

  /** A filter keeps every copy of a kept element and no copy of a dropped one. */
  lemma {:induction false} FilterMultiset<T(!new)>(s: seq<T>, p: T -> bool)
    ensures forall x :: multiset(Filter(s, p))[x] == if p(x) then multiset(s)[x] else 0
  {
    if |s| > 0 {
      FilterMultiset(s[1..], p);
      assert s == [s[0]] + s[1..];
    }
  }

  /** A relation that holds between every earlier and later element still holds after filtering. */
  lemma {:induction false} FilterPairwise<T(!new)>(s: seq<T>, p: T -> bool, ok: (T, T) -> bool)
    requires forall i, j :: 0 <= i < j < |s| ==> ok(s[i], s[j])
    ensures forall i, j :: 0 <= i < j < |Filter(s, p)| ==> ok(Filter(s, p)[i], Filter(s, p)[j])
  {
    if |s| > 0 {
      var t := s[1..];
      assert forall i, j :: 0 <= i < j < |t| ==> ok(t[i], t[j]) by {
        forall i, j | 0 <= i < j < |t| ensures ok(t[i], t[j]) {
          assert t[i] == s[i + 1] && t[j] == s[j + 1];
        }
      }
      FilterPairwise(t, p, ok);
      if p(s[0]) {
        var r := Filter(s, p);
        var rt := Filter(t, p);
        assert r == [s[0]] + rt;
        forall i, j | 0 <= i < j < |r| ensures ok(r[i], r[j]) {
          if i == 0 {
            assert r[j] == rt[j - 1] && rt[j - 1] in rt;
            assert r[j] in t;
            var k :| 0 <= k < |t| && t[k] == r[j];
            assert r[0] == s[0] && s[k + 1] == r[j];
            assert ok(s[0], s[k + 1]);
          } else {
            assert r[i] == rt[i - 1] && r[j] == rt[j - 1];
          }
        }
      } else {
        assert Filter(s, p) == Filter(t, p);
      }
    }
  }

  /** No element occurs twice. */
  predicate Distinct<T(==)>(s: seq<T>)
  {
    forall i, j :: 0 <= i < j < |s| ==> s[i] != s[j]
  }

  lemma {:induction false} FilterDistinct<T(!new)>(s: seq<T>, p: T -> bool)
    requires Distinct(s)
    ensures Distinct(Filter(s, p))
  {
    if |s| > 0 {
      assert Distinct(s[1..]) by {
        forall i, j | 0 <= i < j < |s[1..]| ensures s[1..][i] != s[1..][j] {
          assert s[1..][i] == s[i + 1] && s[1..][j] == s[j + 1];
        }
      }
      FilterDistinct(s[1..], p);
      if p(s[0]) {
        assert s[0] !in s[1..] by {
          forall j | 0 <= j < |s[1..]| ensures s[1..][j] != s[0] {
            assert s[1..][j] == s[j + 1];
          }
        }
      }
    }
  }

  /** A list is without repeats exactly when no element occurs in its multiset more than once. */
  lemma {:induction false} DistinctMultiset<T>(s: seq<T>)
    ensures Distinct(s) <==> forall x :: multiset(s)[x] <= 1
  {
    if |s| > 0 {
      DistinctMultiset(s[1..]);
      assert s == [s[0]] + s[1..];
      if Distinct(s) {
        assert Distinct(s[1..]) by {
          forall i, j | 0 <= i < j < |s[1..]| ensures s[1..][i] != s[1..][j] {
            assert s[1..][i] == s[i + 1] && s[1..][j] == s[j + 1];
          }
        }
        assert s[0] !in s[1..] by {
          forall j | 0 <= j < |s[1..]| ensures s[1..][j] != s[0] {
            assert s[1..][j] == s[j + 1];
          }
        }
      } else {
        var i, j :| 0 <= i < j < |s| && s[i] == s[j];
        if i == 0 {
          assert s[j] == s[1..][j - 1];
          assert multiset(s)[s[0]] >= 2;
        } else {
          assert s[1..][i - 1] == s[i] && s[1..][j - 1] == s[j];
          assert !Distinct(s[1..]);
          var x :| multiset(s[1..])[x] > 1;
          assert multiset(s)[x] > 1;
        }
      }
    }
  }

  /** Reordering a list without repeats gives a list without repeats. */
  lemma DistinctPermutation<T>(s: seq<T>, t: seq<T>)
    requires Distinct(s) && multiset(s) == multiset(t)
    ensures Distinct(t)
  {
    DistinctMultiset(s);
    DistinctMultiset(t);
  }

  lemma {:induction false} FilterNone<T(!new)>(s: seq<T>, p: T -> bool)
    requires forall x :: x in s ==> !p(x)
    ensures Filter(s, p) == []
  {
    if |s| > 0 {
      FilterNone(s[1..], p);
    }
  }

  /** Filtering distributes over concatenation. */
  lemma {:induction false} FilterConcat<T(!new)>(a: seq<T>, b: seq<T>, p: T -> bool)
    ensures Filter(a + b, p) == Filter(a, p) + Filter(b, p)
  {
    if |a| > 0 {
      assert (a + b)[1..] == a[1..] + b;
      FilterConcat(a[1..], b, p);
    } else {
      assert a + b == b;
    }
  }

  /** Filtering by two predicates that agree everywhere gives the same list. */
  lemma {:induction false} FilterSamePredicate<T(!new)>(s: seq<T>, p: T -> bool, q: T -> bool)
    requires forall x :: p(x) == q(x)
    ensures Filter(s, p) == Filter(s, q)
  {
    if |s| > 0 {
      FilterSamePredicate(s[1..], p, q);
    }
  }

  function Count<T(!new)>(s: seq<T>, p: T -> bool): (n: nat)
    ensures n == |Filter(s, p)|
  {
    if |s| == 0 then 0
    else (if p(s[0]) then 1 else 0) + Count(s[1..], p)
  }

  // ---------------------------------------------------------------------
  // Strings
  // ---------------------------------------------------------------------

  /** ASCII lower-casing: the case-insensitivity of SQLite's LIKE. */
  function LowerChar(c: char): (d: char)
    ensures 'A' <= c <= 'Z' ==> d as int == c as int + 32
    ensures !('A' <= c <= 'Z') ==> d == c
  {
    if 'A' <= c <= 'Z' then (c as int + 32) as char else c
  }

  function Lower(s: string): (r: string)
    ensures |r| == |s|
    ensures forall i :: 0 <= i < |s| ==> r[i] == LowerChar(s[i])
  {
    if |s| == 0 then "" else [LowerChar(s[0])] + Lower(s[1..])
  }

  /** `s.includes(t)`: `t` occurs in `s` at some offset. */
  predicate Contains(s: string, t: string)
  {
    t <= s || (|s| > 0 && Contains(s[1..], t))
  }

  lemma {:induction false} ContainsAt(s: string, t: string, i: nat)
    requires i + |t| <= |s| && s[i..i + |t|] == t
    ensures Contains(s, t)
  {
    if i > 0 {
      ContainsAt(s[1..], t, i - 1);
      assert s[1..][i - 1..i - 1 + |t|] == s[i..i + |t|];
    }
  }

  lemma {:induction false} ContainsWitness(s: string, t: string) returns (i: nat)
    requires Contains(s, t)
    ensures i + |t| <= |s| && s[i..i + |t|] == t
  {
    if t <= s {
      i := 0;
    } else {
      var j := ContainsWitness(s[1..], t);
      assert s[1..][j..j + |t|] == s[j + 1..j + 1 + |t|];
      i := j + 1;
    }
  }

  /** The empty string occurs in every string, so `includes('')` always holds. */
  lemma EmptyContained(s: string)
    ensures Contains(s, "")
  {
  }

  lemma ContainsInConcat(a: string, b: string, c: string, t: string)
    requires Contains(b, t)
    ensures Contains(a + b + c, t)
  {
    var i := ContainsWitness(b, t);
    assert (a + b + c)[|a| + i..|a| + i + |t|] == b[i..i + |t|];
    ContainsAt(a + b + c, t, |a| + i);
  }

  /** The white space `trim` removes (the common ASCII and Unicode cases). */
  predicate IsSpace(c: char)
  {
    c == ' ' || c == '\t' || c == '\n' || c == '\r' || c == '\U{B}' || c == '\U{C}'
      || c == '\U{A0}' || c == '\U{FEFF}' || c == '\U{2028}' || c == '\U{2029}'
  }

  function TrimStart(s: string): (r: string)
    ensures |r| <= |s| && r == s[|s| - |r|..]
    ensures |r| > 0 ==> !IsSpace(r[0])
    ensures forall i :: 0 <= i < |s| - |r| ==> IsSpace(s[i])
  {
    if |s| > 0 && IsSpace(s[0]) then TrimStart(s[1..]) else s
  }

  function TrimEnd(s: string): (r: string)
    ensures |r| <= |s| && r == s[..|r|]
    ensures |r| > 0 ==> !IsSpace(r[|r| - 1])
    ensures forall i :: |r| <= i < |s| ==> IsSpace(s[i])
  {
    if |s| > 0 && IsSpace(s[|s| - 1]) then TrimEnd(s[..|s| - 1]) else s
  }

  /** `String.prototype.trim`: strip leading and trailing white space. */
  function Trim(s: string): (r: string)
  {
    TrimEnd(TrimStart(s))
  }

  /** The trimmed string is a slice of the input with no white space at either end, and only white space was cut. */
  lemma TrimSpec(s: string) returns (lo: nat, hi: nat)
    ensures lo <= hi <= |s| && Trim(s) == s[lo..hi]
    ensures forall i :: 0 <= i < lo ==> IsSpace(s[i])
    ensures forall i :: hi <= i < |s| ==> IsSpace(s[i])
    ensures |Trim(s)| > 0 ==> !IsSpace(Trim(s)[0]) && !IsSpace(Trim(s)[|Trim(s)| - 1])
  {
    var st := TrimStart(s);
    var r := TrimEnd(st);
    lo := |s| - |st|;
    hi := lo + |r|;
    assert st == s[lo..];
    assert r == st[..|r|];
    assert r == s[lo..hi];
    forall i | hi <= i < |s| ensures IsSpace(s[i]) {
      assert s[i] == st[i - lo];
    }
    if |r| > 0 {
      assert r[0] == st[0];
    }
  }

  lemma TrimIdempotent(s: string)
    ensures Trim(Trim(s)) == Trim(s)
  {
  }

  // ---------------------------------------------------------------------
  // Decimal rendering of integers (template literals, `toString`)
  // ---------------------------------------------------------------------

  predicate IsDigit(c: char) { '0' <= c <= '9' }

  function DigitChar(d: nat): (c: char)
    requires d < 10
    ensures IsDigit(c)
  {
    ('0' as int + d) as char
  }

  function NatToString(n: nat): (s: string)
    ensures |s| > 0
    ensures forall i :: 0 <= i < |s| ==> IsDigit(s[i])
  {
    if n < 10 then [DigitChar(n)] else NatToString(n / 10) + [DigitChar(n % 10)]
  }

  function IntToString(i: int): (s: string)
    ensures |s| > 0
    ensures i >= 0 ==> forall k :: 0 <= k < |s| ==> IsDigit(s[k])
    ensures i < 0 ==> s[0] == '-'
  {
    if i < 0 then "-" + NatToString(-i) else NatToString(i)
  }

  lemma {:induction false} NatToStringInjective(a: nat, b: nat)
    requires NatToString(a) == NatToString(b)
    ensures a == b
  {
    if a >= 10 && b >= 10 {
      var sa, sb := NatToString(a), NatToString(b);
      assert sa[..|sa| - 1] == NatToString(a / 10);
      assert sb[..|sb| - 1] == NatToString(b / 10);
      NatToStringInjective(a / 10, b / 10);
      assert sa[|sa| - 1] == DigitChar(a % 10);
    }
  }
}

=== FILE: favorites.dfy ===
/**
 * Favourites kept by the favourites context: a list used as a set keyed by
 * content id. Adding an id already present changes nothing; new items go at
 * the end.
 */
module Favorites {
  import opened Common
  import opened UserScope

  const Prefix: string := "favorites"

  /** `isFavorite(id)`: whether some favourite carries that id. */
  function IsFavorite(favs: seq<Content>, id: int): (b: bool)
    ensures b <==> exists i :: 0 <= i < |favs| && favs[i].id == id
  {
    if |favs| == 0 then false
    else
      var rest := IsFavorite(favs[1..], id);
      assert rest <==> exists i :: 1 <= i < |favs| && favs[i].id == id by {
        if rest {
          var i :| 0 <= i < |favs[1..]| && favs[1..][i].id == id;
          assert favs[i + 1] == favs[1..][i];
        }
        forall i | 1 <= i < |favs| && favs[i].id == id ensures rest {
          assert favs[1..][i - 1] == favs[i];
        }
      }
      favs[0].id == id || rest
  }

  predicate IdsUnique(favs: seq<Content>)
  {
    forall i, j :: 0 <= i < j < |favs| ==> favs[i].id != favs[j].id
  }

  /** `addToFavorites`: a no-op if the id is present, otherwise append. */
  function AddToFavorites(favs: seq<Content>, item: Content): (r: seq<Content>)
    ensures IsFavorite(favs, item.id) ==> r == favs
    ensures !IsFavorite(favs, item.id) ==> r == favs + [item]
    ensures IsFavorite(r, item.id)
  {
    if IsFavorite(favs, item.id) then favs
    else
      var r := favs + [item];
      assert r[|favs|].id == item.id;
      r
  }

  /** Favourites never hold two items with one id, so adding twice is adding once. */
  lemma AddToFavoritesUniqueIdempotent(favs: seq<Content>, item: Content)
    requires IdsUnique(favs)
    ensures IdsUnique(AddToFavorites(favs, item))
    ensures AddToFavorites(AddToFavorites(favs, item), item) == AddToFavorites(favs, item)
  {
  }

  /** `removeFromFavorites`: drop every item with that id, keeping the order of the rest. */
  function RemoveFromFavorites(favs: seq<Content>, id: int): (r: seq<Content>)
    ensures forall x :: x in r <==> x in favs && x.id != id
    ensures IsSubsequence(r, favs)
    ensures !IsFavorite(r, id)
  {
    var keep := (x: Content) => x.id != id;
    FilterIsSubsequence(favs, keep);
    var r := Filter(favs, keep);
    assert forall i :: 0 <= i < |r| ==> r[i] in r;
    r
  }

  /** `removeFromFavorites` keeps ids unique. */
  lemma RemoveFromFavoritesKeepsIdsUnique(favs: seq<Content>, id: int)
    requires IdsUnique(favs)
    ensures IdsUnique(RemoveFromFavorites(favs, id))
  {
    var keep := (x: Content) => x.id != id;
    var ok := (a: Content, b: Content) => a.id != b.id;
    FilterPairwise(favs, keep, ok);
    var r := Filter(favs, keep);
    assert forall i, j :: 0 <= i < j < |r| ==> ok(r[i], r[j]);
    assert RemoveFromFavorites(favs, id) == r;
  }

  /** `removeFromFavorites` loses no copy of an item it keeps. */
  lemma RemoveFromFavoritesCounts(favs: seq<Content>, id: int)
    ensures forall x :: multiset(RemoveFromFavorites(favs, id))[x] == if x.id != id then multiset(favs)[x] else 0
  {
    FilterMultiset(favs, (x: Content) => x.id != id);
  }

  /** Membership after remove/add: false right after removing, true right after adding, others untouched. */
  lemma MembershipAfterUpdate(favs: seq<Content>, item: Content, id: int, other: int)
    requires other != id && other != item.id
    ensures IsFavorite(AddToFavorites(favs, item), item.id)
    ensures !IsFavorite(RemoveFromFavorites(favs, id), id)
    ensures IsFavorite(RemoveFromFavorites(favs, id), other) == IsFavorite(favs, other)
    ensures IsFavorite(AddToFavorites(favs, item), other) == IsFavorite(favs, other)
  {
    var r := RemoveFromFavorites(favs, id);
    if IsFavorite(favs, other) {
      var i :| 0 <= i < |favs| && favs[i].id == other;
      assert favs[i] in r;
      var j :| 0 <= j < |r| && r[j] == favs[i];
    }
    if IsFavorite(r, other) {
      var j :| 0 <= j < |r| && r[j].id == other;
      assert r[j] in favs;
    }
    var a := AddToFavorites(favs, item);
    if IsFavorite(a, other) {
      var j :| 0 <= j < |a| && a[j].id == other;
      if a != favs {
        assert j < |favs|;
        assert a[j] == favs[j];
      }
    }
    if IsFavorite(favs, other) {
      var i :| 0 <= i < |favs| && favs[i].id == other;
      assert a[i] == favs[i];
    }
  }

  /** `clearFavorites`: afterwards no id is a favourite. */
  function ClearFavorites(favs: seq<Content>): (r: seq<Content>)
    ensures forall id :: !IsFavorite(r, id)
  {
    []
  }

  // ---------------------------------------------------------------------
  // The provider: scoped to the signed-in user
  // ---------------------------------------------------------------------

  lemma SignedOutNoFavorites(sc: Scope<Content>, id: int)
    ensures OnUserChanged(sc, Prefix, None).memory == []
    ensures !IsFavorite(OnUserChanged(sc, Prefix, None).memory, id)
  {
  }

  /**
   * `addToFavorites` on the provider: when the id is already present nothing,
   * not even storage, is touched; otherwise append and save.
   */
  function ProviderAddToFavorites(sc: Scope<Content>, user: Option<string>, item: Content): (r: Scope<Content>)
    ensures IsFavorite(sc.memory, item.id) ==> r == sc
    ensures !IsFavorite(sc.memory, item.id) ==>
              r.memory == sc.memory + [item]
              && StorageKey(Prefix, user) in r.saved && r.saved[StorageKey(Prefix, user)] == r.memory
  {
    if IsFavorite(sc.memory, item.id) then sc
    else Commit(sc, Prefix, user, AddToFavorites(sc.memory, item))
  }

  function ProviderRemoveFromFavorites(sc: Scope<Content>, user: Option<string>, id: int): (r: Scope<Content>)
    ensures !IsFavorite(r.memory, id)
    ensures r.memory == RemoveFromFavorites(sc.memory, id)
    ensures forall x :: x in r.memory <==> x in sc.memory && x.id != id
    ensures IsSubsequence(r.memory, sc.memory)
    ensures StorageKey(Prefix, user) in r.saved && r.saved[StorageKey(Prefix, user)] == r.memory
  {
    Commit(sc, Prefix, user, RemoveFromFavorites(sc.memory, id))
  }
}

=== FILE: history.dfy ===
/**
 * Watch history: most recent first, one entry per content id. Watching
 * something again moves it to the front with a fresh timestamp. The dedup is
 * by numeric id alone, so movie 1 and show 1 displace each other.
 */
module History {
  import opened Common
  import opened UserScope

  const Prefix: string := "history"

  /** Mock durations, in minutes. */
  const MovieMinutes: int := 120
  const EpisodeMinutes: int := 45

  /** `duration` is optional in stored entries; `addToHistory` always sets it. */
  datatype HistoryItem = HistoryItem(id: int, title: string, posterPath: string,
                                     kind: MediaKind, watchedAt: int, duration: Option<int>)

  function MakeEntry(item: Content, kind: MediaKind, now: int): (h: HistoryItem)
    ensures h.id == item.id && h.title == DisplayTitle(item) && h.posterPath == item.posterPath
    ensures h.kind == kind && h.watchedAt == now
    ensures kind == MovieKind ==> h.duration == Some(120)
    ensures kind == TvKind ==> h.duration == Some(45)
  {
    HistoryItem(item.id, DisplayTitle(item), item.posterPath, kind, now,
                Some(if kind == MovieKind then MovieMinutes else EpisodeMinutes))
  }

  predicate IdsUnique(h: seq<HistoryItem>)
  {
    forall i, j :: 0 <= i < j < |h| ==> h[i].id != h[j].id
  }

  predicate HasId(h: seq<HistoryItem>, id: int)
  {
    exists i :: 0 <= i < |h| && h[i].id == id
  }

  /**
   * `removeFromHistory`: drop every entry with that id, every other entry
   * keeping all its copies and its order. `addToHistory` applies the same
   * filter before putting the new entry first.
   */
  function RemoveFromHistory(h: seq<HistoryItem>, id: int): (r: seq<HistoryItem>)
    ensures forall x :: x in r <==> x in h && x.id != id
    ensures IsSubsequence(r, h)
  {
    var keep := (x: HistoryItem) => x.id != id;
    FilterIsSubsequence(h, keep);
    Filter(h, keep)
  }

  /** `addToHistory`: the new entry goes first; any earlier entry with that id is dropped. */
  function AddToHistory(h: seq<HistoryItem>, item: Content, kind: MediaKind, now: int): (r: seq<HistoryItem>)
    ensures |r| > 0 && r[0] == MakeEntry(item, kind, now)
    ensures r[1..] == RemoveFromHistory(h, item.id)
    ensures forall i :: 1 <= i < |r| ==> r[i].id != item.id
  {
    [MakeEntry(item, kind, now)] + RemoveFromHistory(h, item.id)
  }

  lemma {:induction false} RemoveFromHistoryUnique(h: seq<HistoryItem>, id: int)
    requires IdsUnique(h)
    ensures IdsUnique(RemoveFromHistory(h, id))
    ensures |RemoveFromHistory(h, id)| == if HasId(h, id) then |h| - 1 else |h|
  {
    if |h| > 0 {
      var keep := (x: HistoryItem) => x.id != id;
      assert IdsUnique(h[1..]) by {
        forall i, j | 0 <= i < j < |h[1..]| ensures h[1..][i].id != h[1..][j].id {
          assert h[1..][i] == h[i + 1] && h[1..][j] == h[j + 1];
        }
      }
      RemoveFromHistoryUnique(h[1..], id);
      if h[0].id == id {
        assert !HasId(h[1..], id) by {
          forall i | 0 <= i < |h[1..]| ensures h[1..][i].id != id {
            assert h[1..][i] == h[i + 1];
          }
        }
        assert HasId(h, id);
      } else {
        assert HasId(h, id) == HasId(h[1..], id) by {
          if HasId(h, id) {
            var i :| 0 <= i < |h| && h[i].id == id;
            assert h[1..][i - 1] == h[i];
          }
          if HasId(h[1..], id) {
            var i :| 0 <= i < |h[1..]| && h[1..][i].id == id;
            assert h[i + 1] == h[1..][i];
          }
        }
        var r := RemoveFromHistory(h, id);
        assert r == [h[0]] + RemoveFromHistory(h[1..], id);
        forall i, j | 0 <= i < j < |r| ensures r[i].id != r[j].id {
          if i == 0 {
            assert r[j] in RemoveFromHistory(h[1..], id);
            var k :| 0 <= k < |h[1..]| && h[1..][k] == r[j];
            assert h[k + 1] == r[j];
          } else {
            assert r[i] == RemoveFromHistory(h[1..], id)[i - 1];
          }
        }
      }
    }
  }

  /** `addToHistory` keeps ids unique; the list grows by one unless the id was already there. */
  lemma AddToHistoryUnique(h: seq<HistoryItem>, item: Content, kind: MediaKind, now: int)
    requires IdsUnique(h)
    ensures IdsUnique(AddToHistory(h, item, kind, now))
    ensures |AddToHistory(h, item, kind, now)| == if HasId(h, item.id) then |h| else |h| + 1
  {
    RemoveFromHistoryUnique(h, item.id);
    var r := AddToHistory(h, item, kind, now);
    forall i, j | 0 <= i < j < |r| ensures r[i].id != r[j].id {
      if i > 0 {
        assert r[i] == RemoveFromHistory(h, item.id)[i - 1] && r[j] == RemoveFromHistory(h, item.id)[j - 1];
      }
    }
  }


  /** `item.duration || 0` */
  function Minutes(x: HistoryItem): int
  {
    match x.duration
    case Some(d) => d
    case None => 0
  }

  /** `getWatchedTime`: total minutes, a missing duration counting as 0. */
  function WatchedTime(h: seq<HistoryItem>): int
  {
    if |h| == 0 then 0 else Minutes(h[0]) + WatchedTime(h[1..])
  }

  predicate IsMovie(x: HistoryItem) { x.kind == MovieKind }
  predicate IsTv(x: HistoryItem) { x.kind == TvKind }

  function MoviesWatched(h: seq<HistoryItem>): nat
  {
    Count(h, IsMovie)
  }

  function SeriesWatched(h: seq<HistoryItem>): nat
  {
    Count(h, IsTv)
  }

  /** `clearHistory`: afterwards nothing has been watched and no time is counted. */
  function ClearHistory(h: seq<HistoryItem>): (r: seq<HistoryItem>)
    ensures WatchedTime(r) == 0 && MoviesWatched(r) == 0 && SeriesWatched(r) == 0
    ensures forall id :: !HasId(r, id)
  {
    []
  }

  /** Every entry is a movie or a show, so the two counts add up to the history length. */
  lemma MoviesPlusSeries(h: seq<HistoryItem>)
    ensures MoviesWatched(h) + SeriesWatched(h) == |h|
  {
    FilterPartition(h, IsMovie, IsTv);
  }

  /** Watching a new id adds that entry's mock duration to the watched time. */
  lemma {:induction false} WatchedTimeAdd(h: seq<HistoryItem>, item: Content, kind: MediaKind, now: int)
    requires !HasId(h, item.id)
    ensures WatchedTime(AddToHistory(h, item, kind, now))
              == WatchedTime(h) + (if kind == MovieKind then 120 else 45)
  {
    FilterAll(h, (x: HistoryItem) => x.id != item.id);
    assert RemoveFromHistory(h, item.id) == h;
    var r := AddToHistory(h, item, kind, now);
    assert r[1..] == h;
  }

  /** With unique ids, removing an id takes exactly that entry's minutes off the watched time. */
  lemma {:induction false} WatchedTimeRemove(h: seq<HistoryItem>, id: int, k: nat)
    requires IdsUnique(h) && k < |h| && h[k].id == id
    ensures WatchedTime(RemoveFromHistory(h, id)) == WatchedTime(h) - Minutes(h[k])
  {
    var keep := (x: HistoryItem) => x.id != id;
    var t := h[1..];
    assert IdsUnique(t) by {
      forall i, j | 0 <= i < j < |t| ensures t[i].id != t[j].id {
        assert t[i] == h[i + 1] && t[j] == h[j + 1];
      }
    }
    if k == 0 {
      assert forall x :: x in t ==> keep(x) by {
        forall x | x in t ensures keep(x) {
          var j :| 0 <= j < |t| && t[j] == x;
          assert h[j + 1] == x;
        }
      }
      FilterAll(t, keep);
      assert RemoveFromHistory(h, id) == t;
    } else {
      WatchedTimeRemove(t, id, k - 1);
      var rest := RemoveFromHistory(t, id);
      var r := RemoveFromHistory(h, id);
      assert r == [h[0]] + rest;
      assert r[1..] == rest;
    }
  }

  /** Re-watching an id replaces its entry, so the old duration is taken off and the new one added. */
  lemma RewatchReplacesTime(h: seq<HistoryItem>, item: Content, kind: MediaKind, now: int, k: nat)
    requires IdsUnique(h) && k < |h| && h[k].id == item.id
    ensures WatchedTime(AddToHistory(h, item, kind, now))
              == WatchedTime(h) - Minutes(h[k]) + (if kind == MovieKind then 120 else 45)
  {
    WatchedTimeRemove(h, item.id, k);
    var r := AddToHistory(h, item, kind, now);
    assert r[1..] == RemoveFromHistory(h, item.id);
  }

  // ---------------------------------------------------------------------
  // The provider: scoped to the signed-in user
  // ---------------------------------------------------------------------

  lemma SignedOutHistoryEmpty(sc: Scope<HistoryItem>)
    ensures OnUserChanged(sc, Prefix, None).memory == []
    ensures WatchedTime(OnUserChanged(sc, Prefix, None).memory) == 0
  {
  }

  function ProviderAddToHistory(sc: Scope<HistoryItem>, user: Option<string>, item: Content,
                                kind: MediaKind, now: int): (r: Scope<HistoryItem>)
    ensures |r.memory| > 0 && r.memory[0] == MakeEntry(item, kind, now)
    ensures r.memory[1..] == RemoveFromHistory(sc.memory, item.id)
    ensures forall x :: x in r.memory[1..] <==> x in sc.memory && x.id != item.id
    ensures StorageKey(Prefix, user) in r.saved && r.saved[StorageKey(Prefix, user)] == r.memory
  {
    Commit(sc, Prefix, user, AddToHistory(sc.memory, item, kind, now))
  }
}

=== FILE: movie_api.dfy ===
/**
 * The mock movie API: six movies, three shows and nineteen genres held in
 * static lists, searched, looked up and served as single pages. Ratings and
 * popularity are in tenths (8.2 is 82).
 */
module MovieApi {
  import opened Common
  import opened Catalog

  const Dune: Content :=
    Movie(1, "Duna: Parte Dois",
          "Paul Atreides se une a Chani e aos Fremen em uma guerra de vingança contra os conspiradores que destruíram sua família.",
          "/8xV47NDrjdZDpkVcCFqkdHa3T0C.jpg", "/1pdfLvkbY9ohJlCjQH2CZjjYVvJ.jpg", "2024-03-01",
          82, 3245, [28, 12, 878], false, "en", "Dune: Part Two", 89567, false)

  const Avatar: Content :=
    Movie(2, "Avatar: O Caminho da Água",
          "Após formar uma família, Jake Sully e Ney'tiri fazem de tudo para ficarem juntos. No entanto, eles devem sair de casa e explorar as regiões de Pandora.",
          "/t6HIqrRAclMCA60NsSmeqe9RmNV.jpg", "/s16H6tpK2utvwDtzZ8Qy4qm5Emw.jpg", "2022-12-16",
          76, 8567, [878, 12, 28], false, "en", "Avatar: The Way of Water", 74321, false)

  const SpiderMan: Content :=
    Movie(3, "Spider-Man: Sem Volta para Casa",
          "Peter Parker tem sua identidade secreta revelada e pede ajuda ao Doutor Estranho para tornar isso um segredo novamente.",
          "/fVzXp3NwovUlLe7fvoRynCmBPNc.jpg", "/14QbnygCuTO0vl7CAFmPf1fgZfV.jpg", "2021-12-17",
          84, 15234, [28, 12, 878], false, "en", "Spider-Man: No Way Home", 98234, false)

  const TopGun: Content :=
    Movie(4, "Top Gun: Maverick",
          "Depois de mais de trinta anos de serviço como um dos melhores aviadores da Marinha, Pete Mitchell está onde pertence.",
          "/jMLiTgCo0vXJuwMzZGoNOUPfuj7.jpg", "/odJ4hx6g6vBt4lBWKFD1tI8WS4x.jpg", "2022-05-27",
          83, 6789, [28, 18], false, "en", "Top Gun: Maverick", 56789, false)

  const Oppenheimer: Content :=
    Movie(5, "Oppenheimer",
          "A história do físico americano J. Robert Oppenheimer e seu papel no desenvolvimento da bomba atômica.",
          "/8Gxv8gSFCU0XGDykEGv7zR1n2ua.jpg", "/fm6KqXpk3M2HVveHwCrBSSBaO0V.jpg", "2023-07-21",
          81, 4567, [18, 36], false, "en", "Oppenheimer", 34567, false)

  const Barbie: Content :=
    Movie(6, "Barbie",
          "Barbie e Ken estão tendo o momento das suas vidas no colorido e aparentemente perfeito mundo da Barbie Land.",
          "/iuFNMS8U5cb6xfzi51Dbkovj7vM.jpg", "/nHf61UzkfFno5X1ofIhugCPus2R.jpg", "2023-07-21",
          69, 7890, [35, 12, 14], false, "en", "Barbie", 45678, false)

  const MockMovies: seq<Content> := [Dune, Avatar, SpiderMan, TopGun, Oppenheimer, Barbie]

  const StrangerThings: Content :=
    Show(1, "Stranger Things",
         "Quando um garoto desaparece, a cidade toda participa nas buscas. Mas o que encontram são segredos, forças sobrenaturais e uma menina.",
         "/49WJfeN0moxb9IPfGn8AIqMGskD.jpg", "/56v2KjBlU4XaOv9rVYEQypROD7P.jpg", "2016-07-15",
         87, 9876, [18, 14, 27], false, "en", "Stranger Things", 87654, ["US"])

  const LastOfUs: Content :=
    Show(2, "The Last of Us",
         "Vinte anos depois da destruição da civilização causada por um surto global, Joel e Ellie começam uma jornada através dos EUA devastados.",
         "/uKvVjHNqB5VmOrdxqAt2F7J78ED.jpg", "/2OMB0ynKlyIenMJWI2Dy9IWT4c.jpg", "2023-01-15",
         88, 5432, [18, 27, 53], false, "en", "The Last of Us", 76543, ["US"])

  const HouseOfTheDragon: Content :=
    Show(3, "House of the Dragon",
         "A história da Casa Targaryen acontece 200 anos antes dos eventos de Game of Thrones.",
         "/z2yahl2uefxDCl0nogcRBstwruJ.jpg", "/1M876Kj8Vqwtr6vw8yH2SxVv1uK.jpg", "2022-08-21",
         85, 4321, [10759, 18, 14], false, "en", "House of the Dragon", 65432, ["US"])

  const MockTVShows: seq<Content> := [StrangerThings, LastOfUs, HouseOfTheDragon]

  const MockGenres: seq<Genre> := [
    Genre(28, "Ação"), Genre(12, "Aventura"), Genre(16, "Animação"), Genre(35, "Comédia"),
    Genre(80, "Crime"), Genre(99, "Documentário"), Genre(18, "Drama"), Genre(10751, "Família"),
    Genre(14, "Fantasia"), Genre(36, "História"), Genre(27, "Terror"), Genre(10402, "Música"),
    Genre(9648, "Mistério"), Genre(10749, "Romance"), Genre(878, "Ficção Científica"),
    Genre(10770, "Cinema TV"), Genre(53, "Thriller"), Genre(10752, "Guerra"), Genre(37, "Faroeste")
  ]

  /** A page of results; the mock always answers with a single page. */
  datatype Page = Page(results: seq<Content>, totalPages: int)

  predicate IdsUnique(items: seq<Content>)
  {
    forall i, j :: 0 <= i < j < |items| ==> items[i].id != items[j].id
  }

  /** The mock lists are what the screens expect: movies and shows, each id once. */
  lemma MockCatalogWellFormed()
    ensures IdsUnique(MockMovies) && IdsUnique(MockTVShows)
    ensures forall i :: 0 <= i < |MockMovies| ==> MockMovies[i].Movie? && MockMovies[i].id == i + 1
    ensures forall i :: 0 <= i < |MockTVShows| ==> MockTVShows[i].Show? && MockTVShows[i].id == i + 1
  {
  }

  /** `getPopularMovies(page)`: the whole mock list on one page, whatever page is asked for. */
  function GetPopularMovies(page: int): (r: Page)
    ensures r.totalPages == 1 && |r.results| == 6
    ensures forall c :: c in r.results <==> c in MockMovies
  {
    Page(MockMovies, 1)
  }

  function GetPopularTVShows(page: int): (r: Page)
    ensures r.totalPages == 1 && |r.results| == 3
    ensures forall c :: c in r.results <==> c in MockTVShows
  {
    Page(MockTVShows, 1)
  }

  /** `getGenres`: the mock genre list. */
  function GetGenres(): (r: seq<Genre>)
    ensures r == MockGenres
    ensures |r| == 19
    ensures forall i, j :: 0 <= i < j < |r| ==> r[i].id != r[j].id
  {
    MockGenres
  }

  /** The lookup by id of the mock lists: the first item with that id, if any. */
  function FindById(items: seq<Content>, id: int): (r: Option<Content>)
    ensures r.None? <==> forall i :: 0 <= i < |items| ==> items[i].id != id
    ensures r.Some? ==> exists i :: 0 <= i < |items| && items[i] == r.value
                          && r.value.id == id
                          && forall j :: 0 <= j < i ==> items[j].id != id
  {
    if |items| == 0 then None
    else if items[0].id == id then Some(items[0])
    else
      var r := FindById(items[1..], id);
      if r.Some? then
        var i :| 0 <= i < |items[1..]| && items[1..][i] == r.value && r.value.id == id
                  && forall j :: 0 <= j < i ==> items[1..][j].id != id;
        assert items[i + 1] == r.value;
        assert forall j :: 1 <= j < i + 1 ==> items[j] == items[1..][j - 1];
        r
      else
        assert forall i :: 1 <= i < |items| ==> items[i] == items[1..][i - 1];
        r
  }

  /** `getMovieDetails(id)`: the movie with that id, or the error "Movie not found". */
  function GetMovieDetails(id: int): (r: Result<Content>)
    ensures r.Success? <==> exists i :: 0 <= i < |MockMovies| && MockMovies[i].id == id
    ensures r.Success? ==> r.value in MockMovies && r.value.id == id
    ensures r.Failure? ==> r.error == "Movie not found"
  {
    match FindById(MockMovies, id)
    case Some(m) => Success(m)
    case None => Failure("Movie not found")
  }

  /** `getTVShowDetails(id)`: the show with that id, or the error "TV Show not found". */
  function GetTVShowDetails(id: int): (r: Result<Content>)
    ensures r.Success? <==> exists i :: 0 <= i < |MockTVShows| && MockTVShows[i].id == id
    ensures r.Success? ==> r.value in MockTVShows && r.value.id == id
    ensures r.Failure? ==> r.error == "TV Show not found"
  {
    match FindById(MockTVShows, id)
    case Some(s) => Success(s)
    case None => Failure("TV Show not found")
  }

  /** The mock holds exactly the ids 1-6 for movies and 1-3 for shows. */
  lemma DetailsFoundExactly(id: int)
    ensures GetMovieDetails(id).Success? <==> 1 <= id <= 6
    ensures GetTVShowDetails(id).Success? <==> 1 <= id <= 3
  {
    MockCatalogWellFormed();
    if 1 <= id <= 6 {
      assert MockMovies[id - 1].id == id;
    }
    if 1 <= id <= 3 {
      assert MockTVShows[id - 1].id == id;
    }
  }

  /** The search test: the lower-cased title (or name) or overview contains the lower-cased query. */
  predicate MatchesQuery(c: Content, q: string)
  {
    Contains(Lower(DisplayTitle(c)), Lower(q)) || Contains(Lower(c.overview), Lower(q))
  }

  /** The items of a list that match the query, in list order. */
  function SearchList(items: seq<Content>, q: string): (r: seq<Content>)
    ensures forall c :: c in r <==> c in items && MatchesQuery(c, q)
    ensures IsSubsequence(r, items)
  {
    var p := (c: Content) => MatchesQuery(c, q);
    FilterIsSubsequence(items, p);
    Filter(items, p)
  }

  /** `searchMovies(query, page)` */
  function SearchMovies(q: string, page: int): (r: Page)
    ensures r.totalPages == 1
    ensures forall c :: c in r.results <==> c in MockMovies && MatchesQuery(c, q)
    ensures IsSubsequence(r.results, MockMovies)
  {
    Page(SearchList(MockMovies, q), 1)
  }

  /** `searchTVShows(query, page)` */
  function SearchTVShows(q: string, page: int): (r: Page)
    ensures r.totalPages == 1
    ensures forall c :: c in r.results <==> c in MockTVShows && MatchesQuery(c, q)
    ensures IsSubsequence(r.results, MockTVShows)
  {
    Page(SearchList(MockTVShows, q), 1)
  }

  /** The empty query is contained in every title, so it keeps the whole list. */
  lemma SearchListEmptyQuery(items: seq<Content>)
    ensures SearchList(items, "") == items
  {
    var p := (c: Content) => MatchesQuery(c, "");
    forall c | c in items ensures p(c) {
      EmptyContained(Lower(DisplayTitle(c)));
    }
    FilterAll(items, p);
  }

  /** An empty search returns the whole catalog. */
  lemma EmptyQueryReturnsAll(page: int)
    ensures SearchMovies("", page).results == MockMovies
    ensures SearchTVShows("", page).results == MockTVShows
  {
    SearchListEmptyQuery(MockMovies);
    SearchListEmptyQuery(MockTVShows);
  }

  /** The search ignores case: an upper-case query finds the title it spells. */
  lemma SearchIgnoresCase(page: int)
    ensures MockMovies[5] in SearchMovies("BARBIE", page).results
  {
    assert MockMovies[5] == Barbie;
    assert Lower("BARBIE") == "barbie";
    assert Lower("Barbie") == "barbie";
    ContainsAt("barbie", "barbie", 0);
  }

  // ---------------------------------------------------------------------
  // Image URLs
  // ---------------------------------------------------------------------

  datatype ImageSize = W200 | W300 | W500 | W780 | Original

  const ImageBase: string := "https://image.tmdb.org/t/p/"
  const Placeholder: string := "https://via.placeholder.com/" + "500x750/333/fff?text=No+Image"

  function SizeName(s: ImageSize): string
  {
    match s
    case W200 => "w200"
    case W300 => "w300"
    case W500 => "w500"
    case W780 => "w780"
    case Original => "original"
  }

  /** `getImageUrl(path, size)`: the placeholder for an empty path, else base + size + path. */
  function GetImageUrl(path: string, size: ImageSize): (url: string)
    ensures path == "" ==> url == Placeholder
    ensures path != "" ==> ImageBase <= url && url[|ImageBase|..] == SizeName(size) + path
  {
    if path == "" then Placeholder else ImageBase + SizeName(size) + path
  }

  /** The size the two-argument form leaves out. */
  function GetImageUrlDefault(path: string): (url: string)
    ensures url == GetImageUrl(path, W500)
    ensures path != "" ==> url == "https://image.tmdb.org/t/p/w500" + path
  {
    GetImageUrl(path, W500)
  }

  /** Reads a size and path back out of a built URL. */
  function ParseImageUrl(url: string): Option<(ImageSize, string)>
  {
    if !(ImageBase <= url) then None
    else
      var rest := url[|ImageBase|..];
      if SizeName(W200) <= rest then Some((W200, rest[|SizeName(W200)|..]))
      else if SizeName(W300) <= rest then Some((W300, rest[|SizeName(W300)|..]))
      else if SizeName(W500) <= rest then Some((W500, rest[|SizeName(W500)|..]))
      else if SizeName(W780) <= rest then Some((W780, rest[|SizeName(W780)|..]))
      else if SizeName(Original) <= rest then Some((Original, rest[|SizeName(Original)|..]))
      else None
  }

  /** No size name begins another, so a built URL names its size and path unambiguously. */
  lemma {:induction false} ImageUrlRoundTrip(path: string, size: ImageSize)
    requires path != ""
    ensures ParseImageUrl(GetImageUrl(path, size)) == Some((size, path))
  {
    var url := GetImageUrl(path, size);
    var rest := url[|ImageBase|..];
    assert rest == SizeName(size) + path;
    assert rest[..|SizeName(size)|] == SizeName(size);
    match size
    case W200 =>
    case W300 => assert rest[1] == '3';
    case W500 => assert rest[1] == '5';
    case W780 => assert rest[1] == '7';
    case Original => assert rest[0] == 'o';
  }

  /** Distinct requests give distinct URLs. */
  lemma ImageUrlInjective(p1: string, s1: ImageSize, p2: string, s2: ImageSize)
    requires p1 != "" && p2 != ""
    ensures GetImageUrl(p1, s1) == GetImageUrl(p2, s2) ==> p1 == p2 && s1 == s2
  {
    if GetImageUrl(p1, s1) == GetImageUrl(p2, s2) {
      ImageUrlRoundTrip(p1, s1);
      ImageUrlRoundTrip(p2, s2);
    }
  }

  /** A built URL is never the placeholder, so a missing poster can always be told apart. */
  lemma PlaceholderNeverBuilt(path: string, size: ImageSize)
    requires path != ""
    ensures GetImageUrl(path, size) != Placeholder
  {
    var url := GetImageUrl(path, size);
    assert url[8] == ImageBase[8] == 'i';
    assert Placeholder[8] == 'v';
  }
}

=== FILE: movie_details.dfy ===
/**
 * The details screen's three actions on the item it shows: add it to the
 * cart as a rental, toggle it in the favourites, and record that it is being
 * watched. The screen keeps its own `isFav` flag, seeded from the favourites
 * context when it opens and negated on every press.
 */
module MovieDetails {
  import opened Common
  import opened UserScope
  import Cart
  import Favorites
  import History

  /** Rental prices, in cents: 9.99 for a movie, 14.99 for a show. */
  const MoviePrice: int := 999
  const ShowPrice: int := 1499

  function Price(kind: MediaKind): int
  {
    if kind == MovieKind then MoviePrice else ShowPrice
  }

  /** The line `handleAddToCart` hands to the cart: always a rental of the item. */
  function CartDraft(item: Content, kind: MediaKind): Cart.Draft
  {
    Cart.Draft(item.id, DisplayTitle(item), item.posterPath, Price(kind), Cart.Rent, kind, item)
  }

  predicate IsRentLineFor(item: Content, c: Cart.CartItem)
  {
    Cart.SameKey(c, item.id, Cart.Rent)
  }

  /**
   * `handleAddToCart`: afterwards the cart holds exactly one rental line for
   * the item, titled and priced for its kind; the total grows by that price,
   * less the price of the rental line it replaced.
   */
  function HandleAddToCart(sc: Scope<Cart.CartItem>, user: Option<string>, item: Content,
                           kind: MediaKind, now: nat): (r: Scope<Cart.CartItem>)
    requires Cart.KeysUnique(sc.memory)
    ensures Cart.KeysUnique(r.memory)
    ensures var lines := Filter(r.memory, (c: Cart.CartItem) => IsRentLineFor(item, c));
            && |lines| == 1
            && lines[0].movieId == item.id && lines[0].title == DisplayTitle(item)
            && lines[0].itemType == kind && lines[0].fullItem == item
            && lines[0].price == (if kind == MovieKind then 999 else 1499)
    ensures var k := Cart.FindLine(sc.memory, item.id, Cart.Rent);
            Cart.Total(r.memory) == Cart.Total(sc.memory) + (if kind == MovieKind then 999 else 1499)
                                    - (if k >= 0 then sc.memory[k].price else 0)
    ensures r.memory == Cart.AddItem(sc.memory, CartDraft(item, kind), now)
    ensures forall c :: !IsRentLineFor(item, c) ==> (c in r.memory <==> c in sc.memory)
    ensures user.None? ==> r.saved == sc.saved
    ensures user.Some? ==> StorageKey(Cart.Prefix, user) in r.saved
                           && r.saved[StorageKey(Cart.Prefix, user)] == r.memory
  {
    var d := CartDraft(item, kind);
    var r := Cart.ProviderAddItem(sc, user, d, now);
    Cart.AddItemKeepsKeysUnique(sc.memory, d, now);
    Cart.AddItemTotal(sc.memory, d, now);
    var k0 := Cart.FindLine(sc.memory, item.id, Cart.Rent);
    var k: nat := if k0 >= 0 then k0 else |sc.memory|;
    assert r.memory[k] == Cart.MakeLine(d, now);
    Cart.UniqueKeyFilter(r.memory, k, item.id, Cart.Rent);
    FilterSamePredicate(r.memory, (c: Cart.CartItem) => IsRentLineFor(item, c),
                        (c: Cart.CartItem) => Cart.SameKey(c, item.id, Cart.Rent));
    r
  }

  /** Pressing "add to cart" again for the same item charges it once: the second press leaves the total unchanged. */
  lemma AddToCartTwiceChargesOnce(sc: Scope<Cart.CartItem>, user: Option<string>, item: Content,
                                  kind: MediaKind, t1: nat, t2: nat)
    requires Cart.KeysUnique(sc.memory)
    ensures var r1 := HandleAddToCart(sc, user, item, kind, t1);
            Cart.Total(HandleAddToCart(r1, user, item, kind, t2).memory) == Cart.Total(r1.memory)
  {
    var d := CartDraft(item, kind);
    var r1 := HandleAddToCart(sc, user, item, kind, t1);
    var k0 := Cart.FindLine(sc.memory, item.id, Cart.Rent);
    var k: nat := if k0 >= 0 then k0 else |sc.memory|;
    assert r1.memory[k] == Cart.MakeLine(d, t1);
    var k1 := Cart.FindLine(r1.memory, item.id, Cart.Rent);
    assert k1 >= 0;
    assert r1.memory[k1] == Cart.MakeLine(d, t1);
  }

  datatype DetailsState = DetailsState(favs: Scope<Content>, isFav: bool)

  /** The screen opens with `isFav` read from the favourites context. */
  function Open(favs: Scope<Content>, item: Content): (st: DetailsState)
    ensures st.favs == favs && st.isFav == Favorites.IsFavorite(favs.memory, item.id)
  {
    DetailsState(favs, Favorites.IsFavorite(favs.memory, item.id))
  }

  /**
   * `handleFavorite`: remove when the flag is set, add otherwise, then negate
   * the flag. The flag afterwards always agrees with the context, and no other
   * id changes membership.
   */
  function HandleFavorite(st: DetailsState, user: Option<string>, item: Content): (r: DetailsState)
    ensures r.isFav == !st.isFav
    ensures r.isFav == Favorites.IsFavorite(r.favs.memory, item.id)
    ensures forall other :: other != item.id ==>
              Favorites.IsFavorite(r.favs.memory, other) == Favorites.IsFavorite(st.favs.memory, other)
  {
    var favs := if st.isFav then Favorites.ProviderRemoveFromFavorites(st.favs, user, item.id)
                else Favorites.ProviderAddToFavorites(st.favs, user, item);
    assert !st.isFav ==> favs.memory == Favorites.AddToFavorites(st.favs.memory, item);
    forall other | other != item.id
      ensures Favorites.IsFavorite(favs.memory, other) == Favorites.IsFavorite(st.favs.memory, other)
    {
      Favorites.MembershipAfterUpdate(st.favs.memory, item, item.id, other);
    }
    DetailsState(favs, !st.isFav)
  }

  /** Favouriting an item and unfavouriting it again gives back the favourites list it started from. */
  lemma FavoriteTwiceRestores(st: DetailsState, user: Option<string>, item: Content)
    requires !st.isFav && !Favorites.IsFavorite(st.favs.memory, item.id)
    ensures var r := HandleFavorite(HandleFavorite(st, user, item), user, item);
            r.favs.memory == st.favs.memory && !r.isFav
  {
    var m := st.favs.memory;
    var keep := (x: Content) => x.id != item.id;
    forall x | x in m ensures keep(x) {
      var i :| 0 <= i < |m| && m[i] == x;
    }
    FilterAll(m, keep);
    FilterNone([item], keep);
    FilterConcat(m, [item], keep);
  }

  /** `handleWatch`: the item heads the history, once, and ids stay unique. */
  function HandleWatch(sc: Scope<History.HistoryItem>, user: Option<string>, item: Content,
                       kind: MediaKind, now: int): (r: Scope<History.HistoryItem>)
    requires History.IdsUnique(sc.memory)
    ensures History.IdsUnique(r.memory)
    ensures |r.memory| > 0 && r.memory[0].id == item.id && r.memory[0].kind == kind
    ensures r.memory[0].title == DisplayTitle(item) && r.memory[0].watchedAt == now
    ensures forall i :: 1 <= i < |r.memory| ==> r.memory[i].id != item.id
    ensures forall x :: x in sc.memory && x.id != item.id ==> x in r.memory
    ensures forall x :: x in r.memory[1..] ==> x in sc.memory
    ensures r.memory == History.AddToHistory(sc.memory, item, kind, now)
    ensures StorageKey(History.Prefix, user) in r.saved
            && r.saved[StorageKey(History.Prefix, user)] == r.memory
  {
    History.AddToHistoryUnique(sc.memory, item, kind, now);
    var r := History.ProviderAddToHistory(sc, user, item, kind, now);
    assert r.memory == History.AddToHistory(sc.memory, item, kind, now);
    forall x | x in sc.memory && x.id != item.id ensures x in r.memory {
      assert x in History.RemoveFromHistory(sc.memory, item.id);
      assert r.memory[1..] == History.RemoveFromHistory(sc.memory, item.id);
    }
    r
  }
}

=== FILE: ordering.dfy ===
/**
 * The ordered SELECTs of the database service: `ORDER BY ... DESC LIMIT n`
 * over a table keyed by id. SQL fixes only the sort keys; rows equal on
 * every key may come back in any order, so the model states sortedness,
 * the limit and which rows may be left out, not a tie order.
 */
module Ordering {
  import opened Common
  import opened Catalog

  /** `ORDER BY popularity DESC, vote_average DESC` or `ORDER BY updatedAt DESC`. */
  datatype Order = ByPopularity | ByUpdatedAt

  /** `a` may come before `b` under the order. */
  predicate Le(o: Order, a: Row, b: Row)
  {
    match o
    case ByPopularity =>
      a.content.popularity > b.content.popularity
      || (a.content.popularity == b.content.popularity && a.content.voteAverage >= b.content.voteAverage)
    case ByUpdatedAt => a.updatedAt >= b.updatedAt
  }

  predicate Sorted(o: Order, s: seq<Row>)
  {
    forall i, j :: 0 <= i < j < |s| ==> Le(o, s[i], s[j])
  }

  function InsertSorted(o: Order, x: Row, s: seq<Row>): (r: seq<Row>)
    requires Sorted(o, s)
    ensures Sorted(o, r)
    ensures multiset(r) == multiset(s) + multiset{x}
  {
    if |s| == 0 then [x]
    else if Le(o, x, s[0]) then [x] + s
    else
      var t := InsertSorted(o, x, s[1..]);
      assert s == [s[0]] + s[1..];
      HeadPrecedesInsert(o, x, s, t);
      [s[0]] + t
  }

  lemma HeadPrecedesInsert(o: Order, x: Row, s: seq<Row>, t: seq<Row>)
    requires |s| > 0 && Sorted(o, s) && !Le(o, x, s[0])
    requires Sorted(o, t) && multiset(t) == multiset(s[1..]) + multiset{x}
    ensures Sorted(o, [s[0]] + t)
  {
    forall y | y in t ensures Le(o, s[0], y) {
      assert y in multiset(t);
      if y != x {
        assert y in multiset(s[1..]);
        var j :| 0 <= j < |s[1..]| && s[1..][j] == y;
        assert s[j + 1] == y;
      }
    }
    var r := [s[0]] + t;
    forall i, j | 0 <= i < j < |r| ensures Le(o, r[i], r[j]) {
      if i == 0 {
        assert r[j] == t[j - 1] && t[j - 1] in t;
      } else {
        assert r[i] == t[i - 1] && r[j] == t[j - 1];
      }
    }
  }

  /** A stable insertion sort by the order. */
  function Sort(o: Order, s: seq<Row>): (r: seq<Row>)
    ensures Sorted(o, r)
    ensures multiset(r) == multiset(s) && |r| == |s|
  {
    if |s| == 0 then []
    else
      assert s == [s[0]] + s[1..];
      InsertSorted(o, s[0], Sort(o, s[1..]))
  }

  /** SQLite's `LIMIT n`: at most n rows, and no limit at all when n is negative. */
  function Limit(s: seq<Row>, n: int): (r: seq<Row>)
    ensures r <= s
    ensures n < 0 || n >= |s| ==> r == s
    ensures 0 <= n < |s| ==> |r| == n
  {
    if n < 0 || n >= |s| then s else s[..n]
  }

  /**
   * `scan` lists every key of the table exactly once: the order in which the
   * engine visits the rows, which SQL leaves unspecified.
   */
  predicate ScanOf(t: ContentTable, scan: seq<int>)
  {
    && (forall i :: 0 <= i < |scan| ==> scan[i] in t)
    && (forall k :: k in t ==> k in scan)
    && (forall i, j :: 0 <= i < j < |scan| ==> scan[i] != scan[j])
  }

  /** The rows of a map, one per key, in the order of `ks`. */
  function RowsAt(t: ContentTable, ks: seq<int>): (rows: seq<Row>)
    requires forall i :: 0 <= i < |ks| ==> ks[i] in t
    ensures |rows| == |ks|
    ensures forall i :: 0 <= i < |ks| ==> rows[i] == t[ks[i]]
  {
    seq(|ks|, i requires 0 <= i < |ks| => t[ks[i]])
  }

  predicate Matches(t: ContentTable, keep: Row -> bool, k: int)
  {
    k in t && keep(t[k])
  }

  /** Scanning a well-keyed table meets each row once, and every row it meets is a row of the table. */
  lemma ScanRows(t: ContentTable, scan: seq<int>)
    requires WellKeyed(t) && ScanOf(t, scan)
    ensures Distinct(RowsAt(t, scan))
    ensures forall x :: x in RowsAt(t, scan) <==> x.content.id in t && t[x.content.id] == x
  {
    var rows := RowsAt(t, scan);
    forall i, j | 0 <= i < j < |rows| ensures rows[i] != rows[j] {
      assert rows[i].content.id == scan[i] && rows[j].content.id == scan[j];
    }
    forall x: Row | x.content.id in t && t[x.content.id] == x ensures x in rows {
      var k := x.content.id;
      var i :| 0 <= i < |scan| && scan[i] == k;
      assert rows[i] == x;
    }
    forall x | x in rows ensures x.content.id in t && t[x.content.id] == x {
      var i :| 0 <= i < |rows| && rows[i] == x;
      var k := scan[i];
      assert k in t && x == t[k];
      assert t[k].content.id == k;
    }
  }

  /** A sorted list cut at the limit: what is cut off ranks below everything kept. */
  lemma LimitKeepsBest(o: Order, sorted: seq<Row>, limit: int, x: Row)
    requires Sorted(o, sorted) && x in sorted && x !in Limit(sorted, limit)
    ensures limit >= 0 && |Limit(sorted, limit)| == limit
    ensures forall y :: y in Limit(sorted, limit) ==> Le(o, y, x)
  {
    var r := Limit(sorted, limit);
    var j :| 0 <= j < |sorted| && sorted[j] == x;
    forall y | y in r ensures Le(o, y, x) {
      var i :| 0 <= i < |r| && r[i] == y;
      assert sorted[i] == y;
    }
  }

  /** A prefix of a sorted list without repeats is sorted and without repeats. */
  lemma PrefixSortedDistinct(o: Order, s: seq<Row>, r: seq<Row>)
    requires Sorted(o, s) && Distinct(s) && r <= s
    ensures Sorted(o, r) && Distinct(r)
  {
    forall i, j | 0 <= i < j < |r| ensures Le(o, r[i], r[j]) && r[i] != r[j] {
      assert r[i] == s[i] && r[j] == s[j];
    }
  }

  /**
   * `SELECT * FROM t WHERE keep ORDER BY o LIMIT limit`. Every returned row is a
   * matching row of the table, none twice, in order; a matching row is left out
   * only when the limit was reached, and then it ranks no higher than any
   * returned row.
   */
  function Select(t: ContentTable, scan: seq<int>, keep: Row -> bool, o: Order, limit: int): (r: seq<Row>)
    requires WellKeyed(t) && ScanOf(t, scan)
    ensures forall x :: x in r ==> x.content.id in t && t[x.content.id] == x && keep(x)
    ensures Distinct(r)
    ensures Sorted(o, r)
    ensures limit >= 0 ==> |r| <= limit
    ensures forall k :: Matches(t, keep, k) && t[k] !in r ==>
              limit >= 0 && |r| == limit && forall y :: y in r ==> Le(o, y, t[k])
  {
    var rows := RowsAt(t, scan);
    ScanRows(t, scan);
    var matching := Filter(rows, keep);
    FilterDistinct(rows, keep);
    var sorted := Sort(o, matching);
    DistinctPermutation(matching, sorted);
    var r := Limit(sorted, limit);
    PrefixSortedDistinct(o, sorted, r);
    forall x | x in r ensures x.content.id in t && t[x.content.id] == x && keep(x) {
      assert x in multiset(sorted);
    }
    forall k | Matches(t, keep, k) && t[k] !in r
      ensures limit >= 0 && |r| == limit && forall y :: y in r ==> Le(o, y, t[k])
    {
      assert t[k] in rows;
      assert t[k] in multiset(sorted);
      LimitKeepsBest(o, sorted, limit, t[k]);
    }
    r
  }
}

=== FILE: rentals.dfy ===
/**
 * The rental ledger: an append-only list of rentals, each expiring a fixed
 * 48 hours after it was taken. Whether a rental is active is a pure function
 * of the current time, so nothing is ever recomputed or stored as a flag.
 * Times are milliseconds since the epoch.
 */
module Rentals {
  import opened Common
  import opened UserScope

  const Prefix: string := "rentals"

  /** 48 * 60 * 60 * 1000 */
  const RentalWindowMs: int := 172_800_000

  datatype Rental = Rental(id: string, movieId: int, title: string, posterPath: string,
                           kind: MediaKind, price: int, rentedAt: int, expiresAt: int,
                           item: Content)

  function KindName(k: MediaKind): string
  {
    match k
    case MovieKind => "movie"
    case TvKind => "tv"
  }

  /**
   * The rental created by `addRental(item, kind, price)`. The dates come from
   * one clock read, `now`; the id's timestamp is a second read, `idTime`.
   */
  function MakeRental(item: Content, kind: MediaKind, price: int, now: nat, idTime: nat): (r: Rental)
    ensures r.id == IntToString(item.id) + "-" + KindName(kind) + "-" + NatToString(idTime)
    ensures r.movieId == item.id && r.title == DisplayTitle(item) && r.posterPath == item.posterPath
    ensures r.kind == kind && r.price == price && r.item == item
    ensures r.rentedAt == now && r.expiresAt == now + 48 * 60 * 60 * 1000
  {
    Rental(IntToString(item.id) + "-" + KindName(kind) + "-" + NatToString(idTime),
           item.id, DisplayTitle(item), item.posterPath, kind, price,
           now, now + RentalWindowMs, item)
  }

  /** `addRental`: append; earlier rentals, even of the same content, stay as they were. */
  function AddRental(rentals: seq<Rental>, item: Content, kind: MediaKind, price: int,
                     now: nat, idTime: nat): (r: seq<Rental>)
    ensures |r| == |rentals| + 1
    ensures r[..|rentals|] == rentals
    ensures r[|rentals|] == MakeRental(item, kind, price, now, idTime)
  {
    rentals + [MakeRental(item, kind, price, now, idTime)]
  }

  /** `removeRental`: drop every rental with that id; every other record keeps all its copies. */
  function RemoveRental(rentals: seq<Rental>, id: string): (r: seq<Rental>)
    ensures forall x :: x in r <==> x in rentals && x.id != id
    ensures IsSubsequence(r, rentals)
  {
    var keep := (x: Rental) => x.id != id;
    FilterIsSubsequence(rentals, keep);
    Filter(rentals, keep)
  }

  /** `removeRental` loses no copy of a record it keeps. */
  lemma RemoveRentalCounts(rentals: seq<Rental>, id: string)
    ensures forall x :: multiset(RemoveRental(rentals, id))[x] == if x.id != id then multiset(rentals)[x] else 0
  {
    FilterMultiset(rentals, (x: Rental) => x.id != id);
  }


  predicate IsActive(x: Rental, now: int) { x.expiresAt > now }

  /** `isRented(movieId)`: some rental of that id has not yet expired. Movies and shows share ids here. */
  function IsRented(rentals: seq<Rental>, movieId: int, now: int): (b: bool)
    ensures b <==> exists i :: 0 <= i < |rentals| && rentals[i].movieId == movieId && IsActive(rentals[i], now)
  {
    if |rentals| == 0 then false
    else
      var rest := IsRented(rentals[1..], movieId, now);
      assert rest <==> exists i :: 1 <= i < |rentals| && rentals[i].movieId == movieId && IsActive(rentals[i], now) by {
        if rest {
          var i :| 0 <= i < |rentals[1..]| && rentals[1..][i].movieId == movieId && IsActive(rentals[1..][i], now);
          assert rentals[i + 1] == rentals[1..][i];
        }
        forall i | 1 <= i < |rentals| && rentals[i].movieId == movieId && IsActive(rentals[i], now)
          ensures rest
        {
          assert rentals[1..][i - 1] == rentals[i];
        }
      }
      (rentals[0].movieId == movieId && IsActive(rentals[0], now)) || rest
  }

  /** `clearRentals`: afterwards nothing is rented, active or expired. */
  function ClearRentals(rentals: seq<Rental>): (r: seq<Rental>)
    ensures forall id, now :: !IsRented(r, id, now)
    ensures forall now :: ActiveRentals(r, now) == [] && ExpiredRentals(r, now) == []
  {
    []
  }

  function ActiveRentals(rentals: seq<Rental>, now: int): (r: seq<Rental>)
    ensures forall x :: x in r <==> x in rentals && x.expiresAt > now
    ensures IsSubsequence(r, rentals)
  {
    var active := (x: Rental) => IsActive(x, now);
    FilterIsSubsequence(rentals, active);
    Filter(rentals, active)
  }

  function ExpiredRentals(rentals: seq<Rental>, now: int): (r: seq<Rental>)
    ensures forall x :: x in r <==> x in rentals && x.expiresAt <= now
    ensures IsSubsequence(r, rentals)
  {
    var expired := (x: Rental) => !IsActive(x, now);
    FilterIsSubsequence(rentals, expired);
    Filter(rentals, expired)
  }

  /** Active and expired split the list: nothing in both, nothing lost, multiplicities kept. */
  lemma ActiveExpiredPartition(rentals: seq<Rental>, now: int)
    ensures |ActiveRentals(rentals, now)| + |ExpiredRentals(rentals, now)| == |rentals|
    ensures multiset(ActiveRentals(rentals, now)) + multiset(ExpiredRentals(rentals, now)) == multiset(rentals)
    ensures forall x :: x in ActiveRentals(rentals, now) ==> x !in ExpiredRentals(rentals, now)
  {
    FilterPartition(rentals, (x: Rental) => IsActive(x, now), (x: Rental) => !IsActive(x, now));
  }

  /** A rental taken at `t` counts as active exactly until `t` + 48 h, and as expired from then on. */
  lemma RentalLifetime(rentals: seq<Rental>, item: Content, kind: MediaKind, price: int,
                       t: nat, idTime: nat, now: int)
    ensures var x := MakeRental(item, kind, price, t, idTime);
            var r := AddRental(rentals, item, kind, price, t, idTime);
            && (now < t + RentalWindowMs ==> x in ActiveRentals(r, now) && x !in ExpiredRentals(r, now)
                                              && IsRented(r, item.id, now))
            && (now >= t + RentalWindowMs ==> x !in ActiveRentals(r, now) && x in ExpiredRentals(r, now))
  {
    var r := AddRental(rentals, item, kind, price, t, idTime);
    assert r[|rentals|] == MakeRental(item, kind, price, t, idTime);
  }

  /** Renting movie 1 at T0: still rented at T0 + 47h59m, expired at T0 + 48h01m. */
  lemma RentalScenario(item: Content, t0: nat, idTime: nat)
    requires item.id == 1
    ensures var r := AddRental([], item, MovieKind, 999, t0, idTime);
            && IsRented(r, 1, t0 + 47 * 3_600_000 + 59 * 60_000)
            && !IsRented(r, 1, t0 + 48 * 3_600_000 + 60_000)
            && ExpiredRentals(r, t0 + 48 * 3_600_000 + 60_000) == r
  {
    var r := AddRental([], item, MovieKind, 999, t0, idTime);
    RentalLifetime([], item, MovieKind, 999, t0, idTime, t0 + 47 * 3_600_000 + 59 * 60_000);
    FilterAll(r, (x: Rental) => !IsActive(x, t0 + 48 * 3_600_000 + 60_000));
  }

  // ---------------------------------------------------------------------
  // The provider: scoped to the signed-in user
  // ---------------------------------------------------------------------

  /** Signed out, the provider's list is empty, so nothing counts as rented. */
  lemma SignedOutNothingRented(sc: Scope<Rental>, movieId: int, now: int)
    ensures OnUserChanged(sc, Prefix, None).memory == []
    ensures !IsRented(OnUserChanged(sc, Prefix, None).memory, movieId, now)
  {
  }

  /** `addRental` on the provider: append and save under the user's key (the bare prefix if signed out). */
  function ProviderAddRental(sc: Scope<Rental>, user: Option<string>, item: Content,
                             kind: MediaKind, price: int, now: nat, idTime: nat): (r: Scope<Rental>)
    ensures r.memory == sc.memory + [MakeRental(item, kind, price, now, idTime)]
    ensures StorageKey(Prefix, user) in r.saved && r.saved[StorageKey(Prefix, user)] == r.memory
  {
    Commit(sc, Prefix, user, AddRental(sc.memory, item, kind, price, now, idTime))
  }

  function ProviderClearRentals(sc: Scope<Rental>, user: Option<string>): (r: Scope<Rental>)
    ensures r.memory == []
    ensures StorageKey(Prefix, user) in r.saved && r.saved[StorageKey(Prefix, user)] == []
  {
    Commit(sc, Prefix, user, ClearRentals(sc.memory))
  }
}

=== FILE: rentals_screen.dfy ===
/**
 * The rentals screen: the countdown label of an active rental and the
 * counts on its two tabs. The label is integer hour and minute arithmetic
 * over the milliseconds left, with JavaScript's `%`, whose remainder takes
 * the sign of the dividend.
 */
module RentalsScreen {
  import opened Common
  import opened Rentals

  const MsPerMinute: int := 60_000
  const MsPerHour: int := 3_600_000

  /** `Math.floor(a / b)` for a positive divisor. */
  function FloorDiv(a: int, b: int): (q: int)
    requires b > 0
    ensures q * b <= a < (q + 1) * b
  {
    a / b
  }

  /** JavaScript's `a % b` for a positive divisor: truncated, with the sign of `a`. */
  function JsRem(a: int, b: int): (r: int)
    requires b > 0
    ensures a >= 0 ==> 0 <= r < b
    ensures a < 0 ==> -b < r <= 0
    ensures a >= 0 ==> r == a % b
  {
    if a >= 0 then a % b else -((-a) % b)
  }

  /** A quotient with a remainder in [0, b) has the sign of a non-negative dividend. */
  lemma QuotientSign(a: int, b: int, q: int, r: int)
    requires a >= 0 && b > 0 && a == q * b + r && 0 <= r < b
    ensures q >= 0
  {
    NonPositiveProduct(q + 1, b);
  }

  lemma {:induction false} NonPositiveProduct(x: int, b: nat)
    ensures x <= 0 ==> x * b <= 0
    decreases b
  {
    if b > 0 {
      NonPositiveProduct(x, b - 1);
      assert x * b == x * (b - 1) + x;
    }
  }

  /** The truncated remainder is what is left after taking the quotient rounded toward zero. */
  lemma JsRemQuotient(a: int, b: int) returns (q: int)
    requires b > 0
    ensures a == q * b + JsRem(a, b)
    ensures a >= 0 ==> q >= 0
    ensures a < 0 ==> q <= 0
  {
    if a >= 0 {
      q := a / b;
      QuotientSign(a, b, q, a % b);
    } else {
      var p := (-a) / b;
      assert -a == p * b + (-a) % b;
      q := -p;
      assert q * b == -(p * b);
    }
  }

  /** What `formatTimeRemaining` decides to show. */
  datatype Remaining = HoursLeft(hours: int, minutes: int) | MinutesLeft(minutes: int) | Expired

  /**
   * `diffHours = floor(diff / 1h)`, `diffMins = floor((diff % 1h) / 1min)`;
   * hours when `diffHours > 0`, else minutes when `diffMins > 0`, else expired.
   */
  function TimeRemaining(expiresAt: int, now: int): (r: Remaining)
    ensures var diff := expiresAt - now;
            && (r.HoursLeft? <==> diff >= MsPerHour)
            && (r.MinutesLeft? <==> MsPerMinute <= diff < MsPerHour)
            && (r.Expired? <==> diff < MsPerMinute)
    ensures r.HoursLeft? ==>
              && 0 <= r.minutes <= 59
              && r.hours * MsPerHour + r.minutes * MsPerMinute <= expiresAt - now
              && expiresAt - now < r.hours * MsPerHour + (r.minutes + 1) * MsPerMinute
    ensures r.MinutesLeft? ==>
              && 1 <= r.minutes <= 59
              && r.minutes * MsPerMinute <= expiresAt - now < (r.minutes + 1) * MsPerMinute
  {
    var diff := expiresAt - now;
    var hours := FloorDiv(diff, MsPerHour);
    var mins := FloorDiv(JsRem(diff, MsPerHour), MsPerMinute);
    if hours > 0 then HoursLeft(hours, mins)
    else if mins > 0 then MinutesLeft(mins)
    else Expired
  }

  /** The label: `${h}h ${m}m restantes`, `${m}m restantes` or `Expirado`. */
  function Render(r: Remaining): string
  {
    match r
    case HoursLeft(h, m) => IntToString(h) + "h " + IntToString(m) + "m restantes"
    case MinutesLeft(m) => IntToString(m) + "m restantes"
    case Expired => "Expirado"
  }

  function FormatTimeRemaining(expiresAt: int, now: int): (s: string)
    ensures s == "Expirado" <==> expiresAt - now < MsPerMinute
  {
    var r := TimeRemaining(expiresAt, now);
    var s := Render(r);
    assert r.HoursLeft? ==> s[0] == IntToString(r.hours)[0];
    assert r.MinutesLeft? ==> s[0] == IntToString(r.minutes)[0];
    s
  }

  /**
   * With a Euclidean remainder the minutes of a past expiry would come out
   * positive: one millisecond past the expiry, `diffMins` would be 59 and the
   * label "59m restantes". The truncated remainder keeps it "Expirado".
   */
  lemma TruncatedRemainderMatters(expiresAt: int)
    ensures FloorDiv((expiresAt - (expiresAt + 1)) % MsPerHour, MsPerMinute) == 59
    ensures FormatTimeRemaining(expiresAt, expiresAt + 1) == "Expirado"
  {
  }

  /** A rental with under a minute left still counts as active, though its label already reads "Expirado". */
  lemma LastMinuteShownExpired(x: Rental, now: int)
    requires x.expiresAt == now + 30_000
    ensures IsActive(x, now)
    ensures FormatTimeRemaining(x.expiresAt, now) == "Expirado"
  {
  }

  /** The numbers on the "Ativos" and "Expirados" tabs. */
  datatype TabCounts = TabCounts(active: nat, expired: nat)

  function Tabs(rentals: seq<Rental>, now: int): (t: TabCounts)
    ensures t.active + t.expired == |rentals|
    ensures t.active == |ActiveRentals(rentals, now)| && t.expired == |ExpiredRentals(rentals, now)|
  {
    ActiveExpiredPartition(rentals, now);
    TabCounts(|ActiveRentals(rentals, now)|, |ExpiredRentals(rentals, now)|)
  }
}

=== FILE: search.dfy ===
/**
 * `searchContent`, the ordered catalog queries built on it, and the search
 * log of the database service. A filter takes part only when it is truthy:
 * an absent, zero or empty value is ignored. Text tests are SQLite `LIKE`
 * patterns, which ignore ASCII case.
 */
module Search {
  import opened Common
  import opened Catalog
  import opened Ordering

  /** `type?: 'movie' | 'tv' | 'all'` */
  datatype SearchType = TypeMovie | TypeTv | TypeAll

  /** Ratings are in tenths, like `voteAverage`. */
  datatype SearchFilters = SearchFilters(query: Option<string>, genreId: Option<int>,
                                         minRating: Option<int>, year: Option<int>,
                                         kind: Option<SearchType>)

  /** Rows returned per table by one search. */
  const SearchLimit: nat := 50
  /** Rows `search_history` keeps. */
  const HistoryCap: nat := 50
  /** Queries `getSearchHistory` returns. */
  const RecentLimit: nat := 10

  predicate TruthyText(o: Option<string>)
  {
    o.Some? && o.value != ""
  }

  predicate TruthyNumber(o: Option<int>)
  {
    o.Some? && o.value != 0
  }

  /** The ids `JSON.stringify` writes between the brackets, comma separated. */
  function JoinIds(ids: seq<int>): string
  {
    if |ids| == 0 then ""
    else if |ids| == 1 then IntToString(ids[0])
    else IntToString(ids[0]) + "," + JoinIds(ids[1..])
  }

  /** The `genre_ids` column: `JSON.stringify(genre_ids)`. */
  function GenreJson(ids: seq<int>): string
  {
    "[" + JoinIds(ids) + "]"
  }

  /** `field LIKE '%q%'` */
  predicate LikeContains(field: string, q: string)
  {
    Contains(Lower(field), Lower(q))
  }

  /** `field LIKE 'p%'` */
  predicate LikePrefix(field: string, p: string)
  {
    Lower(p) <= Lower(field)
  }

  /** `release_date` of a movie, `first_air_date` of a show. */
  function DateOf(c: Content): string
  {
    if c.Movie? then c.releaseDate else c.firstAirDate
  }

  predicate QueryOk(f: SearchFilters, c: Content)
  {
    !TruthyText(f.query)
    || LikeContains(DisplayTitle(c), f.query.value)
    || LikeContains(c.overview, f.query.value)
  }

  predicate GenreOk(f: SearchFilters, c: Content)
  {
    !TruthyNumber(f.genreId) || LikeContains(GenreJson(c.genreIds), IntToString(f.genreId.value))
  }

  predicate RatingOk(f: SearchFilters, c: Content)
  {
    !TruthyNumber(f.minRating) || c.voteAverage >= f.minRating.value
  }

  predicate YearOk(f: SearchFilters, c: Content)
  {
    !TruthyNumber(f.year) || LikePrefix(DateOf(c), IntToString(f.year.value))
  }

  /** The WHERE clause the filters build. */
  predicate RowMatches(f: SearchFilters, row: Row)
  {
    QueryOk(f, row.content) && GenreOk(f, row.content) && RatingOk(f, row.content) && YearOk(f, row.content)
  }

  /** `type === 'movie' || type === 'all' || !type` */
  predicate SearchesMovies(f: SearchFilters)
  {
    f.kind != Some(TypeTv)
  }

  /** `type === 'tv' || type === 'all' || !type` */
  predicate SearchesShows(f: SearchFilters)
  {
    f.kind != Some(TypeMovie)
  }

  // ---------------------------------------------------------------------
  // The search log
  // ---------------------------------------------------------------------

  /**
   * `saveSearchQuery`: log the trimmed query, then keep only the 50 newest
   * entries. Entries are logged in time order, so the newest are the last.
   */
  function SaveSearchQuery(db: Db, q: string, now: int): (r: Db)
    ensures r == db.(searchHistory := r.searchHistory)
    ensures |r.searchHistory| == if |db.searchHistory| < HistoryCap then |db.searchHistory| + 1 else HistoryCap
    ensures r.searchHistory[|r.searchHistory| - 1] == SearchEntry(Trim(q), now)
    ensures forall i :: 0 <= i < |r.searchHistory| - 1 ==>
              r.searchHistory[i] == db.searchHistory[|db.searchHistory| - |r.searchHistory| + 1 + i]
  {
    var h := db.searchHistory + [SearchEntry(Trim(q), now)];
    db.(searchHistory := if |h| <= HistoryCap then h else h[|h| - HistoryCap..])
  }

  /** The distinct queries of the log, the most recently searched first. */
  function RecentQueries(h: seq<SearchEntry>): (r: seq<string>)
    ensures Distinct(r)
    ensures forall q :: q in r <==> exists i :: 0 <= i < |h| && h[i].query == q
    ensures |h| > 0 ==> |r| > 0 && r[0] == h[|h| - 1].query
  {
    if |h| == 0 then []
    else
      var q := h[|h| - 1].query;
      var rest := RecentQueries(h[..|h| - 1]);
      var other := (x: string) => x != q;
      FilterDistinct(rest, other);
      var later := Filter(rest, other);
      var r := [q] + later;
      forall i, j | 0 <= i < j < |r| ensures r[i] != r[j] {
        assert r[j] == later[j - 1] && r[j] in later;
        if i > 0 {
          assert r[i] == later[i - 1];
        }
      }
      forall x | x in r ensures exists i :: 0 <= i < |h| && h[i].query == x {
        if x != q {
          var i :| 0 <= i < |h| - 1 && h[..|h| - 1][i].query == x;
          assert h[i].query == x;
        }
      }
      forall x | exists i :: 0 <= i < |h| && h[i].query == x ensures x in r {
        var i :| 0 <= i < |h| && h[i].query == x;
        if i < |h| - 1 {
          assert h[..|h| - 1][i].query == x;
        }
      }
      r
  }

  /**
   * `getSearchHistory`: at most ten distinct logged queries; every logged
   * query appears when there are at most ten of them. The newest query is
   * first when it was not logged before: which entry of a repeated query
   * DISTINCT keeps, and so where it sorts, is the engine's choice.
   */
  function GetSearchHistory(db: Db): (r: seq<string>)
    ensures |r| <= RecentLimit
    ensures Distinct(r)
    ensures forall q :: q in r ==> exists i :: 0 <= i < |db.searchHistory| && db.searchHistory[i].query == q
    ensures |db.searchHistory| > 0 ==> |r| > 0
    ensures var h := db.searchHistory;
            |h| > 0 && (forall i :: 0 <= i < |h| - 1 ==> h[i].query != h[|h| - 1].query) ==>
              r[0] == h[|h| - 1].query
    ensures |RecentQueries(db.searchHistory)| <= RecentLimit ==>
              forall i :: 0 <= i < |db.searchHistory| ==> db.searchHistory[i].query in r
  {
    var all := RecentQueries(db.searchHistory);
    var r := if |all| <= RecentLimit then all else all[..RecentLimit];
    assert forall i, j :: 0 <= i < j < |r| ==> r[i] == all[i] && r[j] == all[j];
    assert forall q :: q in r ==> q in all;
    r
  }

  /** A query never searched before is the first one the history offers once it is saved. */
  lemma SavedQueryComesFirst(db: Db, q: string, now: int)
    requires forall e :: e in db.searchHistory ==> e.query != Trim(q)
    ensures GetSearchHistory(SaveSearchQuery(db, q, now))[0] == Trim(q)
    ensures |SaveSearchQuery(db, q, now).searchHistory| <= HistoryCap
  {
  }

  // ---------------------------------------------------------------------
  // searchContent
  // ---------------------------------------------------------------------

  datatype SearchResult = SearchResult(movies: seq<Row>, tvShows: seq<Row>, total: int)

  /** What a search returns, and the store it leaves (the log may grow). */
  datatype Searched = Searched(result: SearchResult, db: Db)

  /**
   * `searchContent`: each table that the type selects is queried with the
   * truthy filters, ordered by popularity then rating, at most 50 rows; a
   * truthy query is then logged.
   */
  function SearchContent(db: Db, movieScan: seq<int>, showScan: seq<int>, f: SearchFilters, now: int): (r: Searched)
    requires WellKeyed(db.movies) && ScanOf(db.movies, movieScan)
    requires WellKeyed(db.shows) && ScanOf(db.shows, showScan)
    ensures !SearchesMovies(f) ==> r.result.movies == []
    ensures !SearchesShows(f) ==> r.result.tvShows == []
    ensures |r.result.movies| <= SearchLimit && |r.result.tvShows| <= SearchLimit
    ensures r.result.total == |r.result.movies| + |r.result.tvShows|
    ensures forall x :: x in r.result.movies ==>
              x.content.id in db.movies && db.movies[x.content.id] == x && RowMatches(f, x)
    ensures forall x :: x in r.result.tvShows ==>
              x.content.id in db.shows && db.shows[x.content.id] == x && RowMatches(f, x)
    ensures Distinct(r.result.movies) && Sorted(ByPopularity, r.result.movies)
    ensures Distinct(r.result.tvShows) && Sorted(ByPopularity, r.result.tvShows)
    ensures SearchesMovies(f) ==>
              forall k :: k in db.movies && RowMatches(f, db.movies[k]) && db.movies[k] !in r.result.movies ==>
                |r.result.movies| == SearchLimit
    ensures SearchesShows(f) ==>
              forall k :: k in db.shows && RowMatches(f, db.shows[k]) && db.shows[k] !in r.result.tvShows ==>
                |r.result.tvShows| == SearchLimit
    ensures TruthyText(f.query) ==> r.db == SaveSearchQuery(db, f.query.value, now)
    ensures !TruthyText(f.query) ==> r.db == db
  {
    var keep := (x: Row) => RowMatches(f, x);
    var movies := if SearchesMovies(f) then Select(db.movies, movieScan, keep, ByPopularity, SearchLimit) else [];
    var shows := if SearchesShows(f) then Select(db.shows, showScan, keep, ByPopularity, SearchLimit) else [];
    var db' := if TruthyText(f.query) then SaveSearchQuery(db, f.query.value, now) else db;
    Searched(SearchResult(movies, shows, |movies| + |shows|), db')
  }

  /** An absent, zero or empty filter does not narrow the search: such filters match every row. */
  lemma FalsyFiltersIgnored(row: Row, kind: Option<SearchType>)
    ensures RowMatches(SearchFilters(None, None, None, None, kind), row)
    ensures RowMatches(SearchFilters(Some(""), Some(0), Some(0), Some(0), kind), row)
  {
  }

  /** Each id of a list is found inside its JSON text. */
  lemma {:induction false} MemberInJoin(ids: seq<int>, i: nat)
    requires i < |ids|
    ensures Contains(JoinIds(ids), IntToString(ids[i]))
  {
    if |ids| == 1 {
      ContainsAt(JoinIds(ids), IntToString(ids[0]), 0);
    } else if i == 0 {
      assert JoinIds(ids) == IntToString(ids[0]) + ("," + JoinIds(ids[1..]));
      ContainsAt(JoinIds(ids), IntToString(ids[0]), 0);
    } else {
      MemberInJoin(ids[1..], i - 1);
      ContainsInConcat(IntToString(ids[0]) + ",", JoinIds(ids[1..]), "", IntToString(ids[i]));
      assert IntToString(ids[0]) + "," + JoinIds(ids[1..]) + "" == JoinIds(ids);
    }
  }

  /** LIKE on digits and `-` ignores nothing: lower-casing a rendered integer leaves it as it is. */
  lemma LowerIntToString(n: int)
    ensures Lower(IntToString(n)) == IntToString(n)
  {
    var s := IntToString(n);
    forall i | 0 <= i < |s| ensures Lower(s)[i] == s[i] {
      if n >= 0 {
        assert IsDigit(s[i]);
      } else if i > 0 {
        assert s[i] == NatToString(-n)[i - 1];
      }
    }
  }

  /** Every row that carries the genre passes the genre filter. */
  lemma GenreMemberMatches(c: Content, g: int)
    requires g in c.genreIds
    ensures GenreOk(SearchFilters(None, Some(g), None, None, None), c)
  {
    var i :| 0 <= i < |c.genreIds| && c.genreIds[i] == g;
    MemberInJoin(c.genreIds, i);
    ContainsInConcat("[", JoinIds(c.genreIds), "]", IntToString(g));
    LowerContains(GenreJson(c.genreIds), IntToString(g));
    LowerIntToString(g);
  }

  /** Lower-casing both sides keeps an occurrence. */
  lemma LowerContains(s: string, t: string)
    requires Contains(s, t)
    ensures Contains(Lower(s), Lower(t))
  {
    var i := ContainsWitness(s, t);
    assert Lower(s)[i..i + |t|] == Lower(t);
    ContainsAt(Lower(s), Lower(t), i);
  }

  /**
   * The genre test is a substring test on the JSON text, not a membership
   * test: genre 8 matches an item whose only genre is 878.
   */
  lemma GenreSubstringQuirk(c: Content)
    requires c.genreIds == [878]
    ensures 8 !in c.genreIds
    ensures GenreOk(SearchFilters(None, Some(8), None, None, None), c)
  {
    assert GenreJson(c.genreIds) == "[878]";
    assert Lower("[878]") == "[878]";
    assert Lower(IntToString(8)) == "8";
    ContainsAt("[878]", "8", 1);
  }

  /** A query is found in the title whatever the case of either side. */
  lemma QueryIgnoresCase(c: Content, q: string)
    requires q != "" && Contains(DisplayTitle(c), q)
    ensures QueryOk(SearchFilters(Some(q), None, None, None, None), c)
    ensures QueryOk(SearchFilters(Some(Lower(q)), None, None, None, None), c)
  {
    LowerContains(DisplayTitle(c), q);
    LowerIdempotent(q);
  }

  lemma LowerIdempotent(s: string)
    ensures Lower(Lower(s)) == Lower(s)
  {
  }

  // ---------------------------------------------------------------------
  // Ordered catalog queries
  // ---------------------------------------------------------------------

  /**
   * `getPopularMovies(limit)` (and `getPopularTVShows` on the other table):
   * at most `limit` rows, most popular first, ties by rating; a row is left
   * out only when the limit is reached.
   */
  function GetPopular(t: ContentTable, scan: seq<int>, limit: int): (r: seq<Row>)
    requires WellKeyed(t) && ScanOf(t, scan)
    ensures limit >= 0 ==> |r| <= limit
    ensures Sorted(ByPopularity, r) && Distinct(r)
    ensures forall x :: x in r ==> x.content.id in t && t[x.content.id] == x
    ensures forall k :: k in t && t[k] !in r ==>
              limit >= 0 && |r| == limit && forall y :: y in r ==> Le(ByPopularity, y, t[k])
  {
    var all := (x: Row) => true;
    assert forall k :: k in t ==> Matches(t, all, k);
    Select(t, scan, all, ByPopularity, limit)
  }

  /** `getFavoriteMovies`: exactly the flagged rows, most recently updated first. */
  function GetFavoriteMovies(db: Db, scan: seq<int>): (r: seq<Row>)
    requires WellKeyed(db.movies) && ScanOf(db.movies, scan)
    ensures Sorted(ByUpdatedAt, r) && Distinct(r)
    ensures forall x :: x in r ==> x.isFavorite && x.content.id in db.movies && db.movies[x.content.id] == x
    ensures forall k :: k in db.movies && db.movies[k].isFavorite ==> db.movies[k] in r
  {
    var flagged := (x: Row) => x.isFavorite;
    assert forall k :: k in db.movies && db.movies[k].isFavorite ==> Matches(db.movies, flagged, k);
    Select(db.movies, scan, flagged, ByUpdatedAt, -1)
  }

  /** The ids `getFavoriteMovies` returns are the ids a favourite toggle maintains. */
  lemma FavoriteMoviesAreFlaggedIds(db: Db, scan: seq<int>)
    requires WellKeyed(db.movies) && ScanOf(db.movies, scan)
    ensures forall k :: k in db.movies ==> (k in FavoriteMovieIds(db) <==> db.movies[k] in GetFavoriteMovies(db, scan))
  {
  }
}

=== FILE: user_scope.dfy ===
/**
 * Per-user storage of the list-valued contexts (cart, rentals, history,
 * favorites). Each context keeps the list it shows in memory and writes it
 * to the key-value store under a key that carries the signed-in user's id
 * (`rentals_<id>`); with nobody signed in the in-memory list is reset to
 * empty. Only the in-memory map is modelled, not the storage I/O.
 */
module UserScope {
  import opened Common

  datatype Scope<T> = Scope(memory: seq<T>, saved: map<string, seq<T>>)

  /** `user ? `${prefix}_${user.id}` : prefix` */
  function StorageKey(prefix: string, user: Option<string>): (k: string)
    ensures user.None? ==> k == prefix
    ensures user.Some? ==> |k| > |prefix| && k[..|prefix|] == prefix
  {
    match user
    case None => prefix
    case Some(id) => prefix + "_" + id
  }

  /** Two different users (or a user and nobody) never share a storage key. */
  lemma StorageKeyInjective(prefix: string, u: Option<string>, v: Option<string>)
    requires StorageKey(prefix, u) == StorageKey(prefix, v)
    ensures u == v
  {
    if u.Some? && v.Some? {
      var ku, kv := StorageKey(prefix, u), StorageKey(prefix, v);
      assert u.value == ku[|prefix| + 1..];
      assert v.value == kv[|prefix| + 1..];
    }
  }

  /**
   * The effect that runs whenever the user changes: signed out, the list is
   * emptied; signed in, it is loaded from that user's key (empty if none).
   */
  function OnUserChanged<T>(sc: Scope<T>, prefix: string, user: Option<string>): (r: Scope<T>)
    ensures r.saved == sc.saved
    ensures user.None? ==> r.memory == []
    ensures user.Some? && StorageKey(prefix, user) !in sc.saved ==> r.memory == []
    ensures user.Some? && StorageKey(prefix, user) in sc.saved ==>
              r.memory == sc.saved[StorageKey(prefix, user)]
  {
    match user
    case None => sc.(memory := [])
    case Some(_) =>
      var key := StorageKey(prefix, user);
      sc.(memory := if key in sc.saved then sc.saved[key] else [])
  }

  /** Set the in-memory list and write it under the current user's key. */
  function Commit<T>(sc: Scope<T>, prefix: string, user: Option<string>, xs: seq<T>): (r: Scope<T>)
    ensures r.memory == xs
    ensures StorageKey(prefix, user) in r.saved && r.saved[StorageKey(prefix, user)] == xs
    ensures forall k :: k != StorageKey(prefix, user) && k in sc.saved ==> k in r.saved && r.saved[k] == sc.saved[k]
    ensures r.saved.Keys == sc.saved.Keys + {StorageKey(prefix, user)}
  {
    Scope(xs, sc.saved[StorageKey(prefix, user) := xs])
  }

  /** The cart writes only while someone is signed in (its save effect is guarded by `user`). */
  function CommitSignedIn<T>(sc: Scope<T>, prefix: string, user: Option<string>, xs: seq<T>): (r: Scope<T>)
    ensures r.memory == xs
    ensures user.None? ==> r.saved == sc.saved
    ensures user.Some? ==> r == Commit(sc, prefix, user, xs)
  {
    if user.Some? then Commit(sc, prefix, user, xs) else sc.(memory := xs)
  }

  /** Signing out and back in restores exactly what the user last committed. */
  lemma CommitThenReload<T>(sc: Scope<T>, prefix: string, user: Option<string>, xs: seq<T>)
    requires user.Some?
    ensures OnUserChanged(OnUserChanged(Commit(sc, prefix, user, xs), prefix, None), prefix, user).memory == xs
  {
  }

  /** What one user commits is invisible to every other user. */
  lemma CommitIsolated<T>(sc: Scope<T>, prefix: string, user: Option<string>, other: Option<string>, xs: seq<T>)
    requires other.Some? && other != user
    ensures OnUserChanged(Commit(sc, prefix, user, xs), prefix, other).memory
         == OnUserChanged(sc, prefix, other).memory
  {
    if StorageKey(prefix, other) == StorageKey(prefix, user) {
      StorageKeyInjective(prefix, other, user);
    }
  }
}

=== FILE: users.dfy ===
/**
 * The `users` table: rows keyed by a text id, with a UNIQUE email column.
 * Passwords are stored and compared as plain text, as the application does.
 */
module Users {
  import opened Common

  datatype UserRow = UserRow(id: string, name: string, email: string, password: string,
                             createdAt: int, updatedAt: int)

  type Table = map<string, UserRow>

  /** Every row sits under its own id, and no two rows share an email. */
  predicate WellFormed(users: Table)
  {
    && (forall k :: k in users ==> users[k].id == k)
    && (forall a, b :: a in users && b in users && users[a].email == users[b].email ==> a == b)
  }

  predicate EmailTaken(users: Table, email: string)
  {
    exists k :: k in users && users[k].email == email
  }

  /** `getUserByEmail`: the row with that email, if any. */
  function GetUserByEmail(users: Table, email: string): (r: Option<UserRow>)
    requires WellFormed(users)
    ensures r.None? <==> !EmailTaken(users, email)
    ensures r.Some? ==> r.value.id in users && users[r.value.id] == r.value && r.value.email == email
  {
    if EmailTaken(users, email) then
      var k :| k in users && users[k].email == email;
      Some(users[k])
    else None
  }

  /** `createUser`: a plain INSERT, which fails on a repeated id (primary key) or email (UNIQUE). */
  function CreateUser(users: Table, id: string, name: string, email: string, password: string,
                      now: int): (r: Result<Table>)
    ensures r.Failure? <==> id in users || EmailTaken(users, email)
    ensures r.Success? ==> r.value == users[id := UserRow(id, name, email, password, now, now)]
  {
    if id in users || EmailTaken(users, email) then Failure("Failed to create user")
    else Success(users[id := UserRow(id, name, email, password, now, now)])
  }

  /** A successful insert keeps the table well formed, adds one row, and makes it findable by email. */
  lemma CreateUserSound(users: Table, id: string, name: string, email: string, password: string, now: int)
    requires WellFormed(users)
    requires CreateUser(users, id, name, email, password, now).Success?
    ensures var t := CreateUser(users, id, name, email, password, now).value;
            && WellFormed(t)
            && |t| == |users| + 1
            && GetUserByEmail(t, email) == Some(UserRow(id, name, email, password, now, now))
  {
    var t := CreateUser(users, id, name, email, password, now).value;
    assert t.Keys == users.Keys + {id};
  }

  /** `updateUser`: UPDATE ... WHERE id; no row matches an unknown id, and a clash on email fails. */
  function UpdateUser(users: Table, id: string, name: string, email: string, now: int): (r: Result<Table>)
    ensures id !in users ==> r == Success(users)
    ensures id in users ==>
              (r.Failure? <==> exists k :: k in users && k != id && users[k].email == email)
    ensures id in users && r.Success? ==>
              r.value == users[id := users[id].(name := name, email := email, updatedAt := now)]
  {
    if id !in users then Success(users)
    else if exists k :: k in users && k != id && users[k].email == email then Failure("Failed to update user")
    else Success(users[id := users[id].(name := name, email := email, updatedAt := now)])
  }

  lemma UpdateUserKeepsWellFormed(users: Table, id: string, name: string, email: string, now: int)
    requires WellFormed(users)
    requires UpdateUser(users, id, name, email, now).Success?
    ensures WellFormed(UpdateUser(users, id, name, email, now).value)
    ensures UpdateUser(users, id, name, email, now).value.Keys == users.Keys
  {
  }
}

=== FILE: watched_screen.dfy ===
/**
 * The watched screen: the history shown under one of three tabs (everything,
 * movies only, shows only) and the count each tab's label carries.
 */
module WatchedScreen {
  import opened Common
  import opened History

  datatype HistoryFilter = All | Movies | Tv

  /** Whether an entry is listed under the tab. */
  predicate Shown(f: HistoryFilter, x: HistoryItem)
  {
    match f
    case All => true
    case Movies => x.kind == MovieKind
    case Tv => x.kind == TvKind
  }

  /** The entries listed under a tab, in history order (most recent first). */
  function FilteredHistory(h: seq<HistoryItem>, f: HistoryFilter): (r: seq<HistoryItem>)
    ensures f == All ==> r == h
    ensures forall x :: x in r <==> x in h && Shown(f, x)
    ensures IsSubsequence(r, h)
  {
    var keep := (x: HistoryItem) => Shown(f, x);
    FilterIsSubsequence(h, keep);
    assert f == All ==> Filter(h, keep) == h by {
      if f == All {
        FilterAll(h, keep);
      }
    }
    Filter(h, keep)
  }

  /**
   * `getFilterCount`: the history length for the first tab and the context's
   * movie and series counters for the others. Each label agrees with the
   * number of entries its tab lists.
   */
  function GetFilterCount(h: seq<HistoryItem>, f: HistoryFilter): (n: nat)
    ensures n == |FilteredHistory(h, f)|
  {
    var keep := (x: HistoryItem) => Shown(f, x);
    match f
    case All => |h|
    case Movies =>
      FilterSamePredicate(h, keep, IsMovie);
      MoviesWatched(h)
    case Tv =>
      FilterSamePredicate(h, keep, IsTv);
      SeriesWatched(h)
  }

  /** The movie and show tabs split the history between them: their counts add up to the first tab's. */
  lemma TabsPartitionHistory(h: seq<HistoryItem>)
    ensures GetFilterCount(h, Movies) + GetFilterCount(h, Tv) == GetFilterCount(h, All)
    ensures multiset(FilteredHistory(h, Movies)) + multiset(FilteredHistory(h, Tv)) == multiset(h)
  {
    var m := (x: HistoryItem) => Shown(Movies, x);
    var t := (x: HistoryItem) => Shown(Tv, x);
    FilterPartition(h, m, t);
  }

  /** Watching something moves it to the top of the tab for its kind and of the first tab. */
  lemma WatchedItemListedFirst(h: seq<HistoryItem>, item: Content, kind: MediaKind, now: int)
    ensures var r := AddToHistory(h, item, kind, now);
            var f := if kind == MovieKind then Movies else Tv;
            && |FilteredHistory(r, f)| > 0
            && FilteredHistory(r, f)[0] == MakeEntry(item, kind, now)
            && FilteredHistory(r, All)[0] == MakeEntry(item, kind, now)
  {
    var r := AddToHistory(h, item, kind, now);
    var f := if kind == MovieKind then Movies else Tv;
    assert r == [r[0]] + r[1..];
  }
}
